=== FILE: README.md ===
# Conversation analysis agents: the deterministic layer, in Dafny

The repository analyses a conversation between a financial advisor and a
client with a set of agents. Each agent sends prompts to a language model
and turns the answers into structure. The agents are dialogue analysis,
summarization, meeting notes, data retrieval, recommendation, financial
advisor, behavioural bias, data quality and product portfolio checker, and
an orchestrator runs the pipeline and renders a report. This project models
the deterministic text and structure layer around the model calls:

- **Line lists.** Reading an answer as a list of lines: the lines are
  stripped and blank ones are dropped.
- **Marker-based sections.** Extracting a section between markers, with
  Python `s.split(m)[1].split(t)[0].strip()` semantics, including the
  fallbacks when a marker is absent.
- **Dispatch.** The dispatch on analysis, summary and query types, including
  the error and empty results.
- **Retrieval.** The retrieval agent's reload, search and fixed-message
  fallback.
- **Report rendering.** The bullet lists, the `"None"` / `"N/A"` defaults and
  the fixed headings.
- **Findings.** The data-quality cross-check and the product-portfolio gap
  rule.
- **Text building.** Flattening a mapping to `"k: v"` lines, and the text
  of the bias definitions.

The external services are parameters of every stage, bundled in `Env`:

- `gen(prompt)` is the generation call.
- `search(index, query, k)` is the similarity search.
- `split(text)` is the text splitter.

A `Prompt` holds only the values interpolated into the template, not its
wording.

Every stage returns a `Traced` value. It holds the stage's result and the
service calls the stage made, in order: `Generate(prompt)`,
`Search(index, query, k)` or `LoadData`. Statements about stage order,
"exactly one call" or "no call" are statements about that sequence.

The model uses these representations:

- A Python `dict` with string values is a sequence of `(key, value)` pairs
  in insertion order (`Dicts.Dict`).
- A mapping whose values have different types becomes a record with
  `Option` fields, which stand for key presence (`Dialogue.Analysis`,
  `Recommendation.Recommendations`).
- Python's `str.split` (with a non-empty separator), `strip`, `in`, `lower`
  and `join` are defined in `Text`.

Modules:

- `Text`, `Sections`, `Lines`, `Dicts`, `Seqs` and `Optional` hold the
  string and sequence foundations.
- `Services` holds the service calls.
- There is one module per agent: `Dialogue`, `Summarization`,
  `MeetingNotes`, `Retrieval`, `Recommendation`, `FinancialAdvisor`,
  `BehaviouralBias`, `DataQuality`, `PortfolioChecker` and `Orchestrator`.

Notes on the code:

- **Dialogue analysis runs three times per pipeline.** It runs once in
  `run_pipeline`, once inside the structured summary and once inside the
  recommendation agent (`app/agents/orchestrator.py:48`,
  `app/agents/summarization_agent.py:230`,
  `app/agents/recommendation_agent.py:266`).
- **Summary types.** The summarization agent accepts the types `chunk`,
  `unified` and `structured`; `chunk` and `unified` take the same path.
- **Meeting notes.** The meeting-notes agent returns only the sections whose
  headers occur; it keeps no raw-output key.
- **Unused transcript.** The financial advisor loads a transcript and never
  uses it.

## Model

| member | source | states |
|---|---|---|
| Text.Strip | app/agents/dialogue_analysis_agent.py:117 | `strip()` returns an infix of its input with no whitespace at either end, and everything cut off is whitespace |
| Text.StripEmptyIffBlank | app/agents/dialogue_analysis_agent.py:117 | a line is dropped by the `if x.strip()` filter exactly when it is all whitespace |
| Text.StripIdempotent | app/agents/dialogue_analysis_agent.py:117 | stripping a stripped line changes nothing |
| Text.ContainsIffOccurs | app/agents/summarization_agent.py:180 | the `in` test holds exactly when the marker occurs at some position |
| Text.Split | app/agents/summarization_agent.py:181 | `split` yields a single piece exactly when the separator does not occur |
| Text.JoinSplit | app/agents/dialogue_analysis_agent.py:117 | joining the pieces of a split with the separator gives back the text |
| Text.SplitPiecesLackSeparator | app/agents/dialogue_analysis_agent.py:117 | no piece of a split contains the separator |
| Text.SplitJoin | app/agents/financial_advisor_agent.py:47 | parts without the one-character separator, joined by it, split back into the same parts |
| Text.Lower | app/agents/product_portfolio_checker_agent.py:116 | `lower()` keeps the length and maps each character by the ASCII case mapping |
| Text.LowerIdempotent | app/agents/data_retrieval_agent.py:159-161 | lower-casing a lower-cased type changes nothing |
| Text.LowerIsTrue | app/agents/product_portfolio_checker_agent.py:113-119 | a reply lower-cases to `"true"` exactly when it is a four-letter case variant of `true` |
| Sections.BeforeRunsUntil | app/agents/summarization_agent.py:181-183 | `s.split(m)[0]` is the text from the start up to the first occurrence of `m`, or all of `s` |
| Sections.BeforeAbsent | app/agents/meeting_notes_agent.py:71-73 | a terminator that does not occur leaves the text whole |
| Sections.AfterRunsUntil | app/agents/summarization_agent.py:199 | `s.split(m)[1]` runs from just after the first occurrence of `m` to its second occurrence or the end |
| Sections.RunsUntilUnique | app/agents/summarization_agent.py:181-183 | the description of a section by its start and stop marker determines its text |
| Sections.SectionSpan | app/agents/summarization_agent.py:181-183 | a section is the body after the first header (up to a repeat of the header), then cut at the first terminator |
| Sections.SectionIgnoresEarlierText | app/agents/summarization_agent.py:181-183 | the terminator is searched only after the header: text before the header never shortens the section |
| Sections.SectionWithoutStop | app/agents/meeting_notes_agent.py:71-73 | with no terminator in the text, the section is the whole body after the header |
| Lines.KeepNonBlank | app/agents/dialogue_analysis_agent.py:117 | the kept entries are at most as many as the lines, each non-empty and stripped |
| Lines.ParseLines | app/agents/dialogue_analysis_agent.py:117 | every parsed entry is a non-empty stripped line |
| Lines.KeepNonBlankAppend | app/agents/dialogue_analysis_agent.py:117 | the filter distributes over concatenation, so line order is kept |
| Lines.KeepNonBlankSources | app/agents/dialogue_analysis_agent.py:117 | every kept entry is the stripped form of some input line |
| Lines.KeepNonBlankKeeps | app/agents/dialogue_analysis_agent.py:117 | every non-blank input line is kept, stripped |
| Lines.KeepNonBlankOrder | app/agents/dialogue_analysis_agent.py:117 | the comprehension keeps order: an earlier non-blank line is kept at an earlier position |
| Lines.ParseLinesEmptyIffBlank | app/agents/dialogue_analysis_agent.py:152 | an answer yields no entries exactly when it is blank |
| Lines.ParsedLinesSingleLine | app/agents/dialogue_analysis_agent.py:117 | no parsed entry contains a line break |
| Lines.ParseOneLine | app/agents/dialogue_analysis_agent.py:117 | a single line parses to its stripped form, or to nothing when blank |
| Lines.ParseLinesCons | app/agents/dialogue_analysis_agent.py:117 | parsing reads the first line, then the rest, in order |
| Lines.ParseLinesOfJoin | app/agents/dialogue_analysis_agent.py:117 | clean single-line entries written one per line parse back to exactly those entries |
| Dicts.Keys | app/agents/data_quality_agent.py:76 | the keys of a mapping, one per entry, in insertion order |
| Dicts.Get | app/agents/data_quality_agent.py:77-78 | a lookup finds a value exactly when the key is present, and the pair is an entry of the mapping |
| Dicts.GetEntry | app/agents/data_quality_agent.py:76-78 | in a mapping with unique keys, looking up an entry's key gives that entry's value |
| Dicts.CollectKeys | app/agents/summarization_agent.py:177-205 | the keys present are among the assigned names and, when the names are distinct, unique |
| Dicts.CollectGet | app/agents/summarization_agent.py:177-205 | each assigned key holds its value exactly when its condition held |
| Dicts.FlattenLines | app/agents/recommendation_agent.py:43-47 | a flattened mapping splits back into one `"k: v"` line per entry, in mapping order |
| Dicts.FlattenAppend | app/agents/data_retrieval_agent.py:34 | flattening two mappings put together joins their flattened texts with a line break |
| Services.Ask | app/agents/dialogue_analysis_agent.py:72 | a generation call records exactly its prompt |
| Services.Generations | app/agents/orchestrator.py:41-60 | the prompts sent are exactly those of the generation calls made |
| Services.GenerationsAppend | app/agents/orchestrator.py:41-60 | the prompts of two stages run one after the other are the first's, then the second's |
| Services.CreateOrLoad | app/utils/vector_store.py:49-56 | no index exactly when the splitter yields no documents, otherwise an index over those documents |
| Services.InvalidTypeMessage | app/agents/summarization_agent.py:236-238 | the message for a rejected summary or query type (also app/agents/data_retrieval_agent.py:163-167) names both the rejected type and the accepted ones |
| Dialogue.Keys | app/agents/dialogue_analysis_agent.py:170-181 | an analysis holds a key exactly when its result is present, at most three keys |
| Dialogue.EmotionSummary | app/agents/dialogue_analysis_agent.py:76-81 | without the step-3 marker the answer is returned unchanged; with it the result is stripped |
| Dialogue.EmotionSummarySpan | app/agents/dialogue_analysis_agent.py:76-79 | with the marker, the result is the stripped text between its first occurrence and its next occurrence or the end |
| Dialogue.AnalyzeEmotions | app/agents/dialogue_analysis_agent.py:36-83 | one emotion call whose answer is read by EmotionSummary (the stripped span after the marker, positioned by EmotionSummarySpan); an answer without the marker is the result unchanged |
| Dialogue.ExtractTopics | app/agents/dialogue_analysis_agent.py:85-119 | one topic call; the topics are the answer read as lines (ParseLines), so they keep the answer's line order and content (TopicsFollowAnswer, TopicsKeepOrder) |
| Dialogue.ExtractQuestions | app/agents/dialogue_analysis_agent.py:121-154 | one question call; the questions are the answer read as lines (ParseLines): its non-blank lines, stripped, in order, and none for a blank answer |
| Dialogue.TopicsFollowAnswer | app/agents/dialogue_analysis_agent.py:117 | every topic is some stripped answer line, and every non-blank answer line is a topic |
| Dialogue.TopicsKeepOrder | app/agents/dialogue_analysis_agent.py:117 | of two non-blank answer lines, the earlier one's topic comes first |
| Dialogue.Run | app/agents/dialogue_analysis_agent.py:156-181 | each key is present exactly when the type is that name or `full`, and then holds that part's result: `emotions` the emotion summary, `topics` the extracted topics, `questions` the extracted questions; one call per key, only the three analysis prompts |
| Dialogue.RunFull | app/agents/dialogue_analysis_agent.py:172-179 | `full` gives exactly the three keys, computed once each in the order emotions, topics, questions |
| Dialogue.RunUnknown | app/agents/dialogue_analysis_agent.py:170-181 | an unknown type gives an empty mapping, not an error, and makes no call |
| Dialogue.RunSingle | app/agents/dialogue_analysis_agent.py:175-176 | `topics` gives only the topics key, from one topic call |
| MeetingNotes.NotesSection | app/agents/meeting_notes_agent.py:70-74 | the notes are present exactly when their header occurs, and stripped |
| MeetingNotes.ActionsSection | app/agents/meeting_notes_agent.py:76-78 | the action items are present exactly when their header occurs, and stripped |
| MeetingNotes.NoteFields | app/agents/meeting_notes_agent.py:67-80 | the assignments are to `meeting_notes` then `action_items` |
| MeetingNotes.MeetingNotesLookup | app/agents/meeting_notes_agent.py:67-80 | each key holds its section exactly when its header occurs; no other key, no duplicates |
| MeetingNotes.NoHeadersNoNotes | app/agents/meeting_notes_agent.py:67-80 | an answer with neither header gives an empty mapping |
| MeetingNotes.NotesWithoutActions | app/agents/meeting_notes_agent.py:71-73 | without the action-items header the notes run to the end or to a repeat of their own header |
| MeetingNotes.CreateMeetingNotes | app/agents/meeting_notes_agent.py:64-80 | one call, and the notes are its answer read by ParseMeetingNotes, whose keys and values MeetingNotesLookup states; at most the two keys |
| Summarization.StoppedSection | app/agents/summarization_agent.py:180-196 | a terminated section is present exactly when its header occurs, and stripped |
| Summarization.FinalSection | app/agents/summarization_agent.py:198-200 | the reactions section is present exactly when its header occurs, and stripped |
| Summarization.SummaryFields | app/agents/summarization_agent.py:177-205 | the assignments are to the five keys, in insertion order |
| Summarization.StructuredSummaryLookup | app/agents/summarization_agent.py:177-205 | each section key holds its section exactly when its header occurs, `full_summary` always holds the raw answer, and no other key appears |
| Summarization.StoppedSectionSpan | app/agents/summarization_agent.py:180-196 | a terminated section is the body after the header, up to a repeat of the header, then up to the first terminator, stripped |
| Summarization.FinalSectionSpan | app/agents/summarization_agent.py:198-200 | the reactions section runs from its header to a repeat of it or the end, and nothing else ends it |
| Summarization.StoppedSectionIgnoresPreamble | app/agents/summarization_agent.py:181-183 | a terminator before the header never truncates the section |
| Summarization.SummarizeEach | app/agents/summarization_agent.py:74-79 | one summary call per chunk, in chunk order, each result that call's answer |
| Summarization.SummarizeTranscriptChunks | app/agents/summarization_agent.py:59-104 | one call per chunk in order, then exactly one final call on the summaries joined by blank lines, whose answer is the result |
| Summarization.AnalysisFor | app/agents/summarization_agent.py:120-122 | a supplied non-empty analysis is used as is, with no call |
| Summarization.CreateStructuredSummary | app/agents/summarization_agent.py:106-205 | the analysis calls, then one structured call, whose raw answer is kept as `full_summary` |
| Summarization.Run | app/agents/summarization_agent.py:207-238 | `chunk`/`unified` give the chunk summary; `structured` gives a mapping holding `full_summary`; any other type gives only an `error` key naming it and makes no call |
| Summarization.RunChunkIsUnified | app/agents/summarization_agent.py:220-226 | `chunk` and `unified` give the same result and calls |
| Summarization.RunStructured | app/agents/summarization_agent.py:228-233 | `structured` runs the full analysis first, then one structured call on that analysis |
| Retrieval.LoadData | app/agents/data_retrieval_agent.py:19-43 | one load; both sources are kept, and an empty source leaves its index as it was |
| Retrieval.LoadDataIndexes | app/agents/data_retrieval_agent.py:32-43 | the client index is built over the `"k: v"` lines and the product index over the text, each only from a non-empty source |
| Retrieval.Retrieve | app/agents/data_retrieval_agent.py:47-94 | reload exactly when there is no index; no results give the fixed message and no call; results give exactly one summary call over the texts joined by line breaks |
| Retrieval.Run | app/agents/data_retrieval_agent.py:145-167 | reload when either source is falsy; `client` answers with a retrieval from the client collection and `product` from the product collection, each after that reload; an unknown type gives the message, no results, no search and no call |
| Retrieval.RunCaseInsensitive | app/agents/data_retrieval_agent.py:159-162 | any spelling of `client` or `product` behaves as the lower-case one |
| Retrieval.RunSearchesItsCollection | app/agents/data_retrieval_agent.py:159-162 | with data loaded and the named collection indexed, `client` and `product` each search their own collection's index first, with k=3, and return what it found |
| Retrieval.EmptyClientState | app/agents/data_retrieval_agent.py:156-160 | an empty client mapping reloads twice and answers with the fixed message, never searching |
| Retrieval.RetrieveEmptyClient | app/agents/data_retrieval_agent.py:58-67 | with no client index and an empty mapping, the query reloads once and gives the fixed message |
| Recommendation.IdentifyUnmetNeeds | app/agents/recommendation_agent.py:27-91 | one call on the flattened client data and the topics one per line; the needs are that answer read as lines, in order |
| Recommendation.RecommendProducts | app/agents/recommendation_agent.py:93-172 | a product retrieval for the needs joined by spaces, then one call on its summary alone; the recommendations are that answer read as lines, in order |
| Recommendation.NextStepsPrompt | app/agents/recommendation_agent.py:185-195 | each of the three summary sections is passed through when present and empty when missing, and the recommendations go one per line |
| Recommendation.SuggestNextSteps | app/agents/recommendation_agent.py:174-249 | one next-steps call; the steps are its answer read as lines, in order |
| Recommendation.Consult | app/agents/recommendation_agent.py:264-272 | the analysis and the client retrieval ask for no next steps |
| Recommendation.Advise | app/agents/recommendation_agent.py:274-291 | the needs are the answer to the needs prompt on the client summary, topics and emotions, read as lines; the products are the answer to the product prompt on those needs, read as lines; no next steps are asked for |
| Recommendation.Gather | app/agents/recommendation_agent.py:261-291 | after the full analysis and the client retrieval, the needs and products are the answers to the needs and product prompts, read as lines; no next steps are asked for |
| Recommendation.Run | app/agents/recommendation_agent.py:251-303 | exactly the three lists: the unmet needs and the product recommendations are the answers to their prompts read as lines; with no or an empty summary the next steps are empty and never asked for |
| Recommendation.RunWithSummary | app/agents/recommendation_agent.py:293-297 | with a summary, `run` ends with one next-steps call on it and the products, and the steps are that answer's lines |
| Orchestrator.RunPipeline | app/agents/orchestrator.py:30-81 | the pipeline loads first; its analysis is the full analysis; its summary is the structured summary's mapping and holds `full_summary`; its recommendations and final retriever state are those of the recommendation agent run on the loaded state with that summary |
| Orchestrator.PipelineOpening | app/agents/orchestrator.py:41-60 | the load, then the three analysis calls, then the same three inside the summary, then the structured call |
| Orchestrator.PipelineStarts | app/agents/orchestrator.py:41-60 | the pipeline's calls begin with those of the load, the analysis and the structured summary, in that order |
| Orchestrator.OpeningCalls | app/agents/orchestrator.py:41-60 | the load, the analysis and the structured summary make eight calls: the load, the three analysis calls, the same three again, then the structured call |
| Orchestrator.PipelineClosing | app/agents/orchestrator.py:53-60 | the summary is the parsed structured answer, and the last call is the next-steps call on it |
| Orchestrator.FormatList | app/agents/orchestrator.py:119-139 | an empty list renders as its default; a non-empty one starts with `"- "` |
| Orchestrator.FormatListIsBullets | app/agents/orchestrator.py:121 | a non-empty list is `"- " + x` per entry, joined by line breaks |
| Orchestrator.FormatListLines | app/agents/orchestrator.py:121 | newline-free entries read back as one line per entry, each `"- "` then the entry |
| Orchestrator.SummaryValue | app/agents/orchestrator.py:148-157 | a missing summary section renders as `"N/A"`, a present one as its value |
| Orchestrator.InterleaveAt | app/agents/orchestrator.py:142-171 | section `i` is placed after `i` sections and `i + 1` separators |
| Orchestrator.LayoutSections | app/agents/orchestrator.py:142-171 | each heading appears on its own line above its value, and sections appear in the fixed heading order |
| Orchestrator.EmptyListsRender | app/agents/orchestrator.py:119-139 | unmet needs render as `"None identified"` and products and steps as `"None"` exactly when empty |
| Orchestrator.FormatListNotDefault | app/agents/orchestrator.py:120-123 | a default not starting with `"- "` appears exactly for the empty list |
| Orchestrator.GenerateReport | app/agents/orchestrator.py:101-185 | supplied results render with no call; without results the pipeline runs first and its results render |
| PortfolioChecker.ExtractProductInquiries | app/agents/product_portfolio_checker_agent.py:68-76 | one call; unparseable JSON falls back to an empty inquiry list |
| PortfolioChecker.Query | app/agents/product_portfolio_checker_agent.py:86-89 | the query is the product type, a space, and the specific need, missing fields empty |
| PortfolioChecker.Gap | app/agents/product_portfolio_checker_agent.py:120 | the finding sentence embeds the lower-cased product type |
| PortfolioChecker.RelevantReplies | app/agents/product_portfolio_checker_agent.py:113-119 | a reply is relevant exactly when, stripped, it is `true` in any letter case |
| PortfolioChecker.CheckInquiry | app/agents/product_portfolio_checker_agent.py:85-126 | no finding exactly when the top result is relevant and not blank; with an index, one search with k=1 comes first; one relevance call when there are results (corrected reading: a missing index means no results and no search; as written see CheckInquiryAsWritten) |
| PortfolioChecker.CheckAgainstPortfolio | app/agents/product_portfolio_checker_agent.py:78-128 | at most as many findings as inquiries (corrected reading: a missing index means no results; as written see CheckAgainstPortfolioAsWritten) |
| PortfolioChecker.Unanswered | app/agents/product_portfolio_checker_agent.py:96-126 | the unanswered inquiries are exactly those the portfolio does not answer |
| PortfolioChecker.CheckFindsGaps | app/agents/product_portfolio_checker_agent.py:83-128 | the findings are one gap sentence per unanswered inquiry, in inquiry order |
| PortfolioChecker.CheckAppend | app/agents/product_portfolio_checker_agent.py:85-128 | checking two runs of inquiries gives the first's findings and calls, then the second's |
| PortfolioChecker.CheckOne | app/agents/product_portfolio_checker_agent.py:85-126 | one inquiry gives its own finding, if any |
| PortfolioChecker.CheckWithoutIndex | app/agents/product_portfolio_checker_agent.py:91-93 | with no index every inquiry is a gap, and nothing is searched or generated (the corrected reading) |
| PortfolioChecker.CheckInquiryAsWritten | app/agents/product_portfolio_checker_agent.py:91-93 | as written, an inquiry fails exactly when there is no index |
| PortfolioChecker.CheckAgainstPortfolioAsWritten | app/agents/product_portfolio_checker_agent.py:83-93 | as written, the check fails only with no index and at least one inquiry, and then with the `AttributeError` message; otherwise at most one finding per inquiry |
| PortfolioChecker.AsWrittenAgrees | app/agents/product_portfolio_checker_agent.py:83-128 | as written and corrected agree when there is an index; without one, as written fails exactly when there is an inquiry |
| PortfolioChecker.ProductIndex | app/agents/product_portfolio_checker_agent.py:23-28 | there is no index exactly when the portfolio splits into no documents |
| PortfolioChecker.Run | app/agents/product_portfolio_checker_agent.py:139-149 | the findings are the gap sentences of exactly the extracted inquiries the portfolio does not answer, in inquiry order, and the extraction call comes first (corrected reading: a missing index means no results; as written see RunAsWritten) |
| PortfolioChecker.RunAsWritten | app/agents/product_portfolio_checker_agent.py:139-149 | as written, `run` fails only when the portfolio splits into no documents, with the `AttributeError` message; with documents it agrees with the corrected run |
| PortfolioChecker.NoInquiriesNoFindings | app/agents/product_portfolio_checker_agent.py:72-76 | unparseable output or a missing inquiry key gives no findings and only the extraction call |
| PortfolioChecker.EmptyPortfolioRaises | app/agents/product_portfolio_checker_agent.py:91 | an empty portfolio with an inquiry makes the code as written fail; the corrected run gives one gap per inquiry |
| PortfolioChecker.EmptyPortfolioExample | app/agents/product_portfolio_checker_agent.py:91 | a concrete input on which the code as written fails |
| DataQuality.ExtractClientInfo | app/agents/data_quality_agent.py:56-64 | one call; unparseable JSON reads as an empty object |
| DataQuality.Check | app/agents/data_quality_agent.py:77-87 | an entry gives a record exactly when its key is stored and its value is not a substring of the stored one |
| DataQuality.Mismatches | app/agents/data_quality_agent.py:76-89 | at most one record per extracted entry |
| DataQuality.ValidateAgainstClientState | app/agents/data_quality_agent.py:66-89 | a value that is not an object is an error with the fixed message, otherwise the records |
| DataQuality.MismatchesAppend | app/agents/data_quality_agent.py:76 | records follow the extracted entries' order |
| DataQuality.MismatchRecords | app/agents/data_quality_agent.py:76-87 | each record repeats its key, copies both values, and stands for a disagreeing entry; every disagreeing entry has its record |
| DataQuality.UnknownKeysSkipped | app/agents/data_quality_agent.py:77 | entries whose keys the client state lacks give no record |
| DataQuality.Finding | app/agents/data_quality_agent.py:101 | a finding embeds the lower-cased key and the transcript value |
| DataQuality.QualityReportShape | app/agents/data_quality_agent.py:99-108 | the report is the default line exactly when there are no records, and otherwise has one line per record |
| DataQuality.Run | app/agents/data_quality_agent.py:96-118 | an error with the fixed message exactly when the extracted value is not an object; otherwise one call, and the report is that of the disagreeing entries, one finding per record in order (QualityReportShape): the default line alone exactly when no extracted entry disagrees with the client state, and the finding of every entry that does |
| DataQuality.ReportOfEntries | app/agents/data_quality_agent.py:76-108 | the report of some entries is the default line alone exactly when none disagrees, and holds the finding of every entry that does |
| DataQuality.FindingReported | app/agents/data_quality_agent.py:99-103 | every record's finding appears in the report |
| DataQuality.UnparsedMeansNoIssues | app/agents/data_quality_agent.py:60-64 | unparseable output gives the default line alone |
| FinancialAdvisor.GenerateRecommendations | app/agents/financial_advisor_agent.py:34-91 | one call on the client data; the recommendations are its answer read as lines, in order |
| FinancialAdvisor.ClientDataInPrompt | app/agents/financial_advisor_agent.py:46-50 | a mapping reaches the prompt as one `"k: v"` line per entry in order; text is passed unchanged |
| FinancialAdvisor.RecommendationsReadBack | app/agents/financial_advisor_agent.py:87-89 | clean single-line recommendations written one per line are read back exactly |
| FinancialAdvisor.Run | app/agents/financial_advisor_agent.py:93-113 | a client retrieval with the fixed query, then one call on its summary alone; the recommendations returned are that call's answer read as lines, and the retriever state is the retrieval's |
| BehaviouralBias.BlockLines | app/agents/behavioural_bias_agent.py:28-32 | four labelled lines and a blank one per definition |
| BehaviouralBias.BiasText | app/agents/behavioural_bias_agent.py:27-32 | no definitions give the empty text |
| BehaviouralBias.BiasTextAppend | app/agents/behavioural_bias_agent.py:27-32 | the text of two lists of definitions is the first's, then the second's |
| BehaviouralBias.BlockIsLines | app/agents/behavioural_bias_agent.py:28-32 | a definition's text is its labelled lines and a blank line, each ended by a line break |
| BehaviouralBias.BiasTextIsLines | app/agents/behavioural_bias_agent.py:27-32 | the text is every definition's lines, in input order, joined by line breaks, then an empty line |
| BehaviouralBias.BiasTextReadsBack | app/agents/behavioural_bias_agent.py:27-32 | for newline-free fields the text splits back into the definitions' lines and one empty line |
| BehaviouralBias.BiasTextEnding | app/agents/behavioural_bias_agent.py:32 | a non-empty text ends with a blank line |
| BehaviouralBias.IdentifyBiases | app/agents/behavioural_bias_agent.py:17-70 | one call on the transcript and the definitions' text; the findings are its answer read as lines, in order |

## Left out

- Prompt wording, system messages, temperatures and response formats are
  left out. Only the values put into a template are modelled.
- The generation call, the similarity search and the text splitter are
  parameters: they are external services. `get_completion` is not defined
  in `app/agents/base_agent.py`.
- The FAISS index, its embeddings and its on-disk cache are left out. In
  `create_or_load` (`app/utils/vector_store.py:35-46`) a cached collection
  would be reused before the splitter runs. The model always builds from
  the text.
- `VectorStore.search` catches errors and returns no results. The model
  folds this into `search`.
- Data loading (`app/utils/data_loader.py`) is file and document I/O. The
  transcript, the client state, the product text and the bias list are
  parameters. `load_client_state_dict` and `load_biases` are called but not
  defined in that file.
- JSON decoding (`json.loads`) is a parameter. Its failure is `None`, and
  the fallback values are modelled.
- PortfolioChecker.ExtractProductInquiries: the parsed answer is typed as
  an object whose `product_inquiries` list holds objects with optional
  string fields. Three shapes the source fails on cannot be expressed: JSON
  that decodes to a non-object, which raises `AttributeError` at
  `inquiries.get` (`app/agents/product_portfolio_checker_agent.py:85`); an
  inquiry that is not an object, which raises at line 86; and a
  `product_type` that is `null` or not a string, which raises at
  `product_type.lower()` (lines 120 and 125).
- Data-quality values are modelled as strings. A JSON number or list as a
  value, where Python's `in` test behaves differently or raises, is left
  out.
- Saving results and the report to files is I/O, and so are the
  timestamps and `print` logging. A failed save is caught in the source,
  so it has no effect on the result. The model returns the results
  unchanged.
- `__main__` blocks, `main.py`, `config/config.py`, `app/utils/utils.py`
  and `misc/*.py` are wiring, configuration or remote calls.
- Text.Lower: only the ASCII case mapping. Python lower-cases every
  Unicode letter.
- Text.IsSpace: the whitespace set of Python's `str.isspace` on the
  characters listed. Other Unicode separators are not included.
- Retrieval.Run, Recommendation.Run, FinancialAdvisor.Run: the retrieval
  result is always a mapping here, so the `isinstance(..., dict)` branches
  for a text result are not reachable in the model.
- Summarization.CreateStructuredSummary: the summary's topics are joined
  by line breaks. The `isinstance(topics, list)` branch for a text value
  is not reachable, because the analysis always holds a list.
- Orchestrator.GenerateReport: only results shaped as `run_pipeline`
  returns them are rendered. Arbitrary mappings with missing top-level
  keys are not.

## Findings

| source | as written | input that shows it | evidently intended | confidence | as-written member | corrected member |
|---|---|---|---|---|---|---|
| app/agents/product_portfolio_checker_agent.py:91 | `check_against_portfolio` calls `similarity_search` on `self.product_vector_store`. `create_or_load` leaves that store as `None` when the portfolio yields no documents, so the call raises `AttributeError` | a product portfolio text the splitter turns into no documents (for instance `""`) and one extracted inquiry `{"product_type": "Mortgage"}`, assuming `get_completion` is supplied (it is not defined in `app/agents/base_agent.py`, so line 68 raises first otherwise) and no cached product_portfolio collection exists (`app/utils/vector_store.py:35-43` would load it before splitting) | treat a missing index as no search results, so each inquiry becomes a gap finding | not executed | PortfolioChecker.EmptyPortfolioExample | PortfolioChecker.CheckWithoutIndex |

=== FILE: behavioural_bias.dfy ===
/** The behavioural bias agent: the bias definitions written out as text for
    the prompt, and the findings read as a list of lines. */
module BehaviouralBias {
  import opened Text
  import opened Lines
  import opened Services

  /** One bias definition, as the bias list holds it. */
  datatype Bias = Bias(category: string, bias: string, description: string, examples: string)

  /** The lines one definition is written as: four labelled lines and a
      blank one. */
  function BlockLines(b: Bias): (ls: seq<string>)
    ensures |ls| == 5 && ls[4] == ""
  {
    ["Category: " + b.category, "Bias: " + b.bias, "Description: " + b.description, "Example: " + b.examples, ""]
  }

  /** The text one definition adds. */
  function Block(b: Bias): string {
    "Category: " + b.category + "\n" + "Bias: " + b.bias + "\n" + "Description: " + b.description + "\n"
    + "Example: " + b.examples + "\n\n"
  }

  /** The definitions' text, built as the loop does: each block appended to
      the text of the definitions before it. */
  function BiasText(bs: seq<Bias>): (t: string)
    ensures bs == [] ==> t == ""
    decreases |bs|
  {
    if bs == [] then "" else BiasText(bs[..|bs| - 1]) + Block(bs[|bs| - 1])
  }

  /** The lines of the definitions, block after block. */
  function BiasLines(bs: seq<Bias>): (ls: seq<string>)
    ensures |ls| == 5 * |bs|
    decreases |bs|
  {
    if bs == [] then [] else BiasLines(bs[..|bs| - 1]) + BlockLines(bs[|bs| - 1])
  }

  /** The text of two lists of definitions is the first's, then the
      second's. */
  lemma {:induction false} BiasTextAppend(a: seq<Bias>, b: seq<Bias>)
    ensures BiasText(a + b) == BiasText(a) + BiasText(b)
    decreases |b|
  {
    if b == [] {
      assert a + b == a;
    } else {
      var init := b[..|b| - 1];
      var last := Block(b[|b| - 1]);
      assert (a + b)[..|a + b| - 1] == a + init;
      assert (a + b)[|a + b| - 1] == b[|b| - 1];
      assert BiasText(a + b) == BiasText(a + init) + last;
      BiasTextAppend(a, init);
      assert BiasText(b) == BiasText(init) + last;
    }
  }

  /** A definition's text is its lines joined by line breaks, plus a final
      line break. */
  lemma {:induction false} BlockIsLines(b: Bias)
    ensures Block(b) == Join("\n", BlockLines(b)) + "\n"
  {
    var ls := BlockLines(b);
    assert Join("\n", ls[4..]) == "";
    assert Join("\n", ls[3..]) == ls[3] + "\n" + "";
    assert Join("\n", ls[2..]) == ls[2] + "\n" + Join("\n", ls[3..]);
    assert Join("\n", ls[1..]) == ls[1] + "\n" + Join("\n", ls[2..]);
  }

  /** The whole text is the definitions' lines joined by line breaks,
      followed by one empty line: every definition contributes its four
      labelled lines and a blank line, in input order. */
  lemma {:induction false} BiasTextIsLines(bs: seq<Bias>)
    ensures BiasText(bs) == Join("\n", BiasLines(bs) + [""])
    decreases |bs|
  {
    if bs == [] {
      assert BiasLines(bs) + [""] == [""];
    } else {
      var init := bs[..|bs| - 1];
      var bl := BlockLines(bs[|bs| - 1]);
      assert BiasText(bs) == BiasText(init) + Block(bs[|bs| - 1]);
      assert BiasLines(bs) == BiasLines(init) + bl;
      BlockIsLines(bs[|bs| - 1]);
      BiasTextIsLines(init);
      if init == [] {
        assert BiasLines(bs) == bl;
        JoinThenBlank(bl);
      } else {
        JoinLinesStep(BiasLines(init), bl);
      }
    }
  }

  /** Lines joined after one more, empty, line end with a line break. */
  lemma {:induction false} JoinThenBlank(xs: seq<string>)
    requires |xs| > 0
    ensures Join("\n", xs + [""]) == Join("\n", xs) + "\n"
  {
    JoinAppend("\n", xs, [""]);
    assert Join("\n", [""]) == "";
  }

  /** Text ending in an empty line, followed by more lines each ended by a
      line break, is all the lines joined, then an empty line. */
  lemma {:induction false} JoinLinesStep(ls: seq<string>, more: seq<string>)
    requires |ls| > 0 && |more| > 0
    ensures Join("\n", ls + [""]) + (Join("\n", more) + "\n") == Join("\n", ls + more + [""])
  {
    JoinThenBlank(ls);
    JoinThenBlank(ls + more);
    JoinAppend("\n", ls, more);
  }

  /** For fields without line breaks, the text reads back line by line as
      the definitions' lines followed by one empty line. */
  lemma {:induction false} BiasTextReadsBack(bs: seq<Bias>)
    requires forall i :: 0 <= i < |bs| ==>
      '\n' !in bs[i].category && '\n' !in bs[i].bias && '\n' !in bs[i].description && '\n' !in bs[i].examples
    ensures Split(BiasText(bs), "\n") == BiasLines(bs) + [""]
  {
    var ls := BiasLines(bs) + [""];
    BiasTextIsLines(bs);
    BiasLinesSingle(bs);
    assert forall k :: 0 <= k < |ls| ==> "\n"[0] !in ls[k];
    SplitJoin("\n", ls);
  }

  /** No line of the definitions spans a line break when no field holds
      one. */
  lemma {:induction false} BiasLinesSingle(bs: seq<Bias>)
    requires forall i :: 0 <= i < |bs| ==>
      '\n' !in bs[i].category && '\n' !in bs[i].bias && '\n' !in bs[i].description && '\n' !in bs[i].examples
    ensures forall k :: 0 <= k < |BiasLines(bs)| ==> '\n' !in BiasLines(bs)[k]
    decreases |bs|
  {
    if bs != [] {
      var init := bs[..|bs| - 1];
      var b := bs[|bs| - 1];
      BiasLinesSingle(init);
      assert '\n' !in "Category: " && '\n' !in "Bias: " && '\n' !in "Description: " && '\n' !in "Example: ";
      assert forall k :: 0 <= k < 5 ==> '\n' !in BlockLines(b)[k];
      assert BiasLines(bs) == BiasLines(init) + BlockLines(b);
    }
  }

  /** A non-empty text ends with a blank line. */
  lemma {:induction false} BiasTextEnding(bs: seq<Bias>)
    requires bs != []
    ensures var t := BiasText(bs); |t| >= 2 && t[|t| - 2..] == "\n\n"
  {
    var t := BiasText(bs);
    var block := Block(bs[|bs| - 1]);
    assert t == BiasText(bs[..|bs| - 1]) + block;
    assert block[|block| - 2..] == "\n\n";
  }

  /** `identify_biases`: one call on the transcript and the definitions'
      text (the definitions are a parameter, as their loader is not part of
      this model), its answer read as a list of lines. */
  function IdentifyBiases(env: Env, transcript: string, biases: seq<Bias>): (r: Traced<seq<string>>)
    ensures r.events == [Generate(BiasFindings(transcript, BiasText(biases)))]
    ensures r.value == ParseLines(env.gen(BiasFindings(transcript, BiasText(biases))))
    ensures CleanLines(r.value)
  {
    var out := Ask(env, BiasFindings(transcript, BiasText(biases)));
    Traced(ParseLines(out.value), out.events)
  }
}

=== FILE: data_quality.dfy ===
/** The data quality agent: client facts drawn from the transcript,
    cross-checked against the client state, and one finding per
    disagreement. */
module DataQuality {
  import opened Optional
  import opened Text
  import opened Dicts
  import opened Services
  import opened Seqs

  /** The parsed answer: a JSON object (its entries in order) or any other
      JSON value. */
  datatype Extracted = Object(entries: Dict) | NotObject

  /** `extract_client_info`: one call on the transcript, its answer read by
      `parse` (which stands for `json.loads`; `None` is a decoding error,
      read as an empty object). */
  function ExtractClientInfo(env: Env, parse: string -> Option<Extracted>, transcript: string): (r: Traced<Extracted>)
    ensures r.events == [Generate(ClientFacts(transcript))]
    ensures parse(env.gen(ClientFacts(transcript))).None? ==> r.value == Object([])
    ensures parse(env.gen(ClientFacts(transcript))).Some? ==> r.value == parse(env.gen(ClientFacts(transcript))).value
  {
    var out := Ask(env, ClientFacts(transcript));
    var parsed := parse(out.value);
    Traced(if parsed.None? then Object([]) else parsed.value, out.events)
  }

  /** One disagreement between the transcript and the client state. */
  datatype Mismatch = Mismatch(
    transcriptKey: string,
    transcriptValue: string,
    clientStateKey: string,
    clientStateValue: string)

  /** Whether an extracted entry disagrees with the client state: its key is
      stored there and the extracted value is not a substring of the stored
      one. */
  predicate Disagrees(clientState: Dict, key: string, value: string) {
    var stored := Get(clientState, key);
    stored.Some? && !Contains(stored.value, value)
  }

  /** The record of an entry: both keys the extracted key, the stored value
      copied from the client state, nothing when they agree. */
  function Check(clientState: Dict, entry: (string, string)): (r: seq<Mismatch>)
    ensures |r| <= 1
    ensures r != [] <==> Disagrees(clientState, entry.0, entry.1)
  {
    var stored := Get(clientState, entry.0);
    if stored.Some? && !Contains(stored.value, entry.1) then [Mismatch(entry.0, entry.1, entry.0, stored.value)] else []
  }

  /** The loop of `validate_against_client_state` over the extracted
      entries, in order. */
  function Mismatches(clientState: Dict, extracted: Dict): (r: seq<Mismatch>)
    ensures |r| <= |extracted|
    decreases |extracted|
  {
    if extracted == [] then []
    else Check(clientState, extracted[0]) + Mismatches(clientState, extracted[1..])
  }

  /** The message `validate_against_client_state` raises with when the
      extracted value is not a JSON object. */
  const NotObjectError: string := "Extracted information must be a dictionary"

  /** `validate_against_client_state`: an error for anything but an object,
      otherwise the records of the entries that disagree with the client
      state. */
  function ValidateAgainstClientState(clientState: Dict, extracted: Extracted): (r: Result<seq<Mismatch>>)
    ensures r.Error? <==> extracted.NotObject?
    ensures r.Error? ==> r.message == NotObjectError
    ensures extracted.Object? ==> r.value == Mismatches(clientState, extracted.entries)
  {
    if extracted.NotObject? then Error(NotObjectError) else Ok(Mismatches(clientState, extracted.entries))
  }

  /** Records follow the extracted entries' order: the records of entries
      followed by more entries are those of the first, then those of the
      rest. */
  lemma {:induction false} MismatchesAppend(clientState: Dict, a: Dict, b: Dict)
    ensures Mismatches(clientState, a + b) == Mismatches(clientState, a) + Mismatches(clientState, b)
    decreases |a|
  {
    if a == [] {
      assert a + b == b;
    } else {
      assert (a + b)[0] == a[0];
      assert (a + b)[1..] == a[1..] + b;
      MismatchesAppend(clientState, a[1..], b);
    }
  }

  /** Every record names one key twice, carries the extracted entry's value
      and the stored value unchanged, and stands for an entry that
      disagrees; conversely every disagreeing entry has its record. */
  lemma {:induction false} MismatchRecords(clientState: Dict, extracted: Dict)
    ensures forall m :: m in Mismatches(clientState, extracted) ==>
      && m.transcriptKey == m.clientStateKey
      && (m.transcriptKey, m.transcriptValue) in extracted
      && Get(clientState, m.transcriptKey) == Some(m.clientStateValue)
      && !Contains(m.clientStateValue, m.transcriptValue)
    ensures forall e :: e in extracted && Disagrees(clientState, e.0, e.1) ==>
      Mismatch(e.0, e.1, e.0, Get(clientState, e.0).value) in Mismatches(clientState, extracted)
    decreases |extracted|
  {
    if extracted != [] {
      var rest := extracted[1..];
      MismatchRecords(clientState, rest);
      assert Mismatches(clientState, extracted) == Check(clientState, extracted[0]) + Mismatches(clientState, rest);
      assert forall e :: e in extracted ==> e == extracted[0] || e in rest;
    }
  }

  /** Entries whose keys the client state does not hold give no record. */
  lemma {:induction false} UnknownKeysSkipped(clientState: Dict, extracted: Dict)
    requires forall i :: 0 <= i < |extracted| ==> extracted[i].0 !in Keys(clientState)
    ensures Mismatches(clientState, extracted) == []
    decreases |extracted|
  {
    if extracted != [] {
      UnknownKeysSkipped(clientState, extracted[1..]);
    }
  }

  /** The report's line when nothing disagrees. */
  const NoIssues: string := "- No data quality issues" + " were found in the conversation."
  const FindingOpening: string := "- During the meeting, Haris mentioned "

  /** The finding of one record, with both keys lower-cased. */
  function Finding(m: Mismatch): (f: string)
    ensures Contains(f, Lower(m.transcriptKey) + " (" + m.transcriptValue + ")")
    ensures |f| > |FindingOpening| && f[..|FindingOpening|] == FindingOpening
  {
    var middle := Lower(m.transcriptKey) + " (" + m.transcriptValue + ")";
    var closing := ". The agent checked the client database noting " + Lower(m.clientStateKey) + " is " + m.clientStateValue + ".";
    ContainsMiddle(FindingOpening, middle, closing);
    FindingOpening + middle + closing
  }

  /** `generate_quality_report`'s findings for the records: one per record,
      in order, or the single default line when there are none. */
  function QualityReport(records: seq<Mismatch>): (fs: seq<string>)
    ensures records == [] ==> fs == [NoIssues]
    ensures records != [] ==> |fs| == |records| && forall i :: 0 <= i < |records| ==> fs[i] == Finding(records[i])
  {
    if records == [] then [NoIssues] else Map(Finding, records)
  }

  /** The report has one line per record, and the default line alone
      exactly when there is no record. */
  lemma {:induction false} QualityReportShape(records: seq<Mismatch>)
    ensures |QualityReport(records)| == if records == [] then 1 else |records|
    ensures QualityReport(records) == [NoIssues] <==> records == []
  {
    if records != [] {
      var f := Finding(records[0]);
      assert QualityReport(records)[0] == f;
      assert f[2] == FindingOpening[2] == 'D';
      // The verifier reads characters only from short literals, hence the
      // two pieces of NoIssues.
      assert NoIssues[2] == 'N';
    }
  }

  /** `run`: extract, validate against the client state (a parameter, as its
      loader is not part of this model), and report. The report is the
      default line alone exactly when no extracted entry disagrees with the
      client state; otherwise it holds the finding of every disagreeing
      entry. */
  function Run(env: Env, parse: string -> Option<Extracted>, transcript: string, clientState: Dict):
    (r: Result<Traced<seq<string>>>)
    ensures r.Error? <==> ExtractClientInfo(env, parse, transcript).value.NotObject?
    ensures r.Error? ==> r.message == NotObjectError
    ensures r.Ok? ==> |r.value.value| >= 1 && r.value.events == [Generate(ClientFacts(transcript))]
    ensures r.Ok? ==>
      r.value.value == QualityReport(Mismatches(clientState, ExtractClientInfo(env, parse, transcript).value.entries))
    ensures r.Ok? ==> var entries := ExtractClientInfo(env, parse, transcript).value.entries;
      && (r.value.value == [NoIssues] <==> forall e :: e in entries ==> !Disagrees(clientState, e.0, e.1))
      && forall e :: e in entries && Disagrees(clientState, e.0, e.1) ==>
           Finding(Mismatch(e.0, e.1, e.0, Get(clientState, e.0).value)) in r.value.value
  {
    var info := ExtractClientInfo(env, parse, transcript);
    var checked := ValidateAgainstClientState(clientState, info.value);
    if checked.Error? then Error(checked.message)
    else
      ReportOfEntries(clientState, info.value.entries);
      Ok(Traced(QualityReport(checked.value), info.events))
  }

  /** The report of the records of some entries is the default line alone
      exactly when no entry disagrees, and holds the finding of every entry
      that does. */
  lemma {:induction false} ReportOfEntries(clientState: Dict, entries: Dict)
    ensures var report := QualityReport(Mismatches(clientState, entries));
      && (report == [NoIssues] <==> forall e :: e in entries ==> !Disagrees(clientState, e.0, e.1))
      && forall e :: e in entries && Disagrees(clientState, e.0, e.1) ==>
           Finding(Mismatch(e.0, e.1, e.0, Get(clientState, e.0).value)) in report
  {
    var records := Mismatches(clientState, entries);
    MismatchRecords(clientState, entries);
    QualityReportShape(records);
    if records != [] {
      var m := records[0];
      assert (m.transcriptKey, m.transcriptValue) in entries && Disagrees(clientState, m.transcriptKey, m.transcriptValue);
    }
    forall e | e in entries && Disagrees(clientState, e.0, e.1)
      ensures Finding(Mismatch(e.0, e.1, e.0, Get(clientState, e.0).value)) in QualityReport(records)
    {
      FindingReported(records, Mismatch(e.0, e.1, e.0, Get(clientState, e.0).value));
    }
  }

  /** Every record's finding is in the report. */
  lemma {:induction false} FindingReported(records: seq<Mismatch>, m: Mismatch)
    requires m in records
    ensures Finding(m) in QualityReport(records)
  {
    var i :| 0 <= i < |records| && records[i] == m;
    assert QualityReport(records)[i] == Finding(m);
  }

  /** An answer that does not parse yields the default line alone. */
  lemma {:induction false} UnparsedMeansNoIssues(env: Env, parse: string -> Option<Extracted>, transcript: string,
                                                 clientState: Dict)
    requires parse(env.gen(ClientFacts(transcript))).None?
    ensures Run(env, parse, transcript, clientState) == Ok(Traced([NoIssues], [Generate(ClientFacts(transcript))]))
  {
    assert Mismatches(clientState, []) == [];
  }
}

=== FILE: dialogue.dfy ===
/** The dialogue analysis agent: emotional insights, main topics and client
    questions drawn from the transcript, each by one generation call. */
module Dialogue {
  import opened Optional
  import opened Text
  import opened Sections
  import opened Lines
  import opened Services
  import opened Seqs

  /** The heading after which the model states its emotional summary. */
  const EmotionMarker: string := "Step 3 - Summarize emotional insights:"

  /** The analysis mapping: each field is present exactly when its key is. */
  datatype Analysis = Analysis(
    emotions: Option<string>,
    topics: Option<seq<string>>,
    questions: Option<seq<string>>)

  /** The keys of the mapping, in the order they are inserted. */
  function Keys(a: Analysis): (ks: seq<string>)
    ensures |ks| <= 3
    ensures "emotions" in ks <==> a.emotions.Some?
    ensures "topics" in ks <==> a.topics.Some?
    ensures "questions" in ks <==> a.questions.Some?
  {
    (if a.emotions.Some? then ["emotions"] else [])
    + (if a.topics.Some? then ["topics"] else [])
    + (if a.questions.Some? then ["questions"] else [])
  }

  /** Python truthiness of the mapping: it is falsy when it has no key. */
  predicate IsEmpty(a: Analysis) {
    a.emotions.None? && a.topics.None? && a.questions.None?
  }

  /** The emotional summary read from the model's answer: the stripped text
      after the marker when the marker occurs, the answer untouched when it
      does not. */
  function EmotionSummary(out: string): (r: string)
    ensures !Contains(out, EmotionMarker) ==> r == out
    ensures Contains(out, EmotionMarker) ==> IsStripped(r)
  {
    if Contains(out, EmotionMarker) then Strip(After(out, EmotionMarker)) else out
  }

  /** With the marker present, the summary is the stripped text running from
      just after its first occurrence to its second occurrence, or to the end. */
  lemma {:induction false} EmotionSummarySpan(out: string)
    requires Contains(out, EmotionMarker)
    ensures exists body :: RunsUntil(out, First(out, EmotionMarker) + |EmotionMarker|, EmotionMarker, body)
                        && EmotionSummary(out) == Strip(body)
  {
    AfterRunsUntil(out, EmotionMarker);
    var body := After(out, EmotionMarker);
    assert EmotionSummary(out) == Strip(body);
  }

  /** `analyze_emotions`: one generation call, then the summary extraction. */
  function AnalyzeEmotions(env: Env, transcript: string): (r: Traced<string>)
    ensures r.events == [Generate(EmotionAnalysis(transcript))]
    ensures r.value == EmotionSummary(env.gen(EmotionAnalysis(transcript)))
    ensures !Contains(env.gen(EmotionAnalysis(transcript)), EmotionMarker) ==>
      r.value == env.gen(EmotionAnalysis(transcript))
  {
    var out := Ask(env, EmotionAnalysis(transcript));
    Traced(EmotionSummary(out.value), out.events)
  }

  /** `extract_topics`: one generation call, read as a list of lines. */
  function ExtractTopics(env: Env, transcript: string): (r: Traced<seq<string>>)
    ensures r.events == [Generate(TopicExtraction(transcript))]
    ensures r.value == ParseLines(env.gen(TopicExtraction(transcript)))
    ensures forall k :: 0 <= k < |r.value| ==> r.value[k] != "" && IsStripped(r.value[k])
  {
    var out := Ask(env, TopicExtraction(transcript));
    Traced(ParseLines(out.value), out.events)
  }

  /** `extract_questions`: one generation call, read as a list of lines. */
  function ExtractQuestions(env: Env, transcript: string): (r: Traced<seq<string>>)
    ensures r.events == [Generate(QuestionExtraction(transcript))]
    ensures r.value == ParseLines(env.gen(QuestionExtraction(transcript)))
    ensures forall k :: 0 <= k < |r.value| ==> r.value[k] != "" && IsStripped(r.value[k])
    ensures AllSpace(env.gen(QuestionExtraction(transcript))) ==> r.value == []
  {
    var out := Ask(env, QuestionExtraction(transcript));
    ParseLinesEmptyIffBlank(out.value);
    Traced(ParseLines(out.value), out.events)
  }

  /** Topics keep the content of the answer's non-blank lines: each is a
      stripped answer line, and every non-blank line is among them. */
  lemma {:induction false} TopicsFollowAnswer(env: Env, transcript: string)
    ensures forall k :: 0 <= k < |ExtractTopics(env, transcript).value| ==>
      exists i :: 0 <= i < |AnswerLines(env, transcript)| &&
        ExtractTopics(env, transcript).value[k] == Strip(AnswerLines(env, transcript)[i])
    ensures forall i :: 0 <= i < |AnswerLines(env, transcript)| && Strip(AnswerLines(env, transcript)[i]) != "" ==>
      Strip(AnswerLines(env, transcript)[i]) in ExtractTopics(env, transcript).value
  {
    KeepNonBlankSources(AnswerLines(env, transcript));
    KeepNonBlankKeeps(AnswerLines(env, transcript));
    assert ExtractTopics(env, transcript).value == KeepNonBlank(AnswerLines(env, transcript));
  }

  /** Topics keep the answer's line order: of two non-blank answer lines,
      the earlier one's topic comes first. */
  lemma {:induction false} TopicsKeepOrder(env: Env, transcript: string, i: nat, j: nat)
    requires i < j < |AnswerLines(env, transcript)|
    requires Strip(AnswerLines(env, transcript)[i]) != "" && Strip(AnswerLines(env, transcript)[j]) != ""
    ensures var topics := ExtractTopics(env, transcript).value;
      exists a, b ::
        && 0 <= a < b < |topics|
        && topics[a] == Strip(AnswerLines(env, transcript)[i])
        && topics[b] == Strip(AnswerLines(env, transcript)[j])
  {
    KeepNonBlankOrder(AnswerLines(env, transcript), i, j);
  }

  /** The lines of the model's answer to the topic prompt. */
  function AnswerLines(env: Env, transcript: string): seq<string> {
    Split(env.gen(TopicExtraction(transcript)), "\n")
  }

  /** One part of the analysis: computed, with its calls, when wanted;
      absent, with no call, otherwise. */
  function Part<T>(wanted: bool, part: Traced<T>): (r: Traced<Option<T>>)
    ensures r.value.Some? <==> wanted
    ensures wanted ==> r.value == Some(part.value) && r.events == part.events
    ensures !wanted ==> r.events == []
  {
    if wanted then Traced(Some(part.value), part.events) else Traced(None, [])
  }

  /** Whether the analysis type asks for the part named `name`. */
  predicate Wants(analysisType: string, name: string) {
    analysisType == name || analysisType == "full"
  }

  /** `run`: each part is computed when the type names it or is "full", in
      the order emotions, topics, questions; an unknown type yields an empty
      mapping. */
  function Run(env: Env, transcript: string, analysisType: string): (r: Traced<Analysis>)
    ensures r.value.emotions.Some? <==> Wants(analysisType, "emotions")
    ensures r.value.topics.Some? <==> Wants(analysisType, "topics")
    ensures r.value.questions.Some? <==> Wants(analysisType, "questions")
    ensures Wants(analysisType, "emotions") ==> r.value.emotions == Some(AnalyzeEmotions(env, transcript).value)
    ensures Wants(analysisType, "topics") ==> r.value.topics == Some(ExtractTopics(env, transcript).value)
    ensures Wants(analysisType, "questions") ==> r.value.questions == Some(ExtractQuestions(env, transcript).value)
    ensures |r.events| == |Keys(r.value)|
    ensures forall p :: Generate(p) in r.events ==>
      p == EmotionAnalysis(transcript) || p == TopicExtraction(transcript) || p == QuestionExtraction(transcript)
  {
    var e := Part(Wants(analysisType, "emotions"), AnalyzeEmotions(env, transcript));
    var t := Part(Wants(analysisType, "topics"), ExtractTopics(env, transcript));
    var q := Part(Wants(analysisType, "questions"), ExtractQuestions(env, transcript));
    OnlyThesePrompts(e.events, t.events, q.events,
                     EmotionAnalysis(transcript), TopicExtraction(transcript), QuestionExtraction(transcript));
    Traced(Analysis(e.value, t.value, q.value), e.events + t.events + q.events)
  }

  /** Calls made one part after another ask only the parts' prompts. */
  lemma {:induction false} OnlyThesePrompts(a: seq<Event>, b: seq<Event>, c: seq<Event>, x: Prompt, y: Prompt, z: Prompt)
    requires a == [] || a == [Generate(x)]
    requires b == [] || b == [Generate(y)]
    requires c == [] || c == [Generate(z)]
    ensures forall p :: Generate(p) in a + b + c ==> p == x || p == y || p == z
    ensures |a + b + c| == |a| + |b| + |c|
  {
  }

  lemma {:induction false} RunFull(env: Env, transcript: string)
    ensures Keys(Run(env, transcript, "full").value) == ["emotions", "topics", "questions"]
    ensures Run(env, transcript, "full").events ==
      [Generate(EmotionAnalysis(transcript)), Generate(TopicExtraction(transcript)),
       Generate(QuestionExtraction(transcript))]
    ensures !IsEmpty(Run(env, transcript, "full").value)
  {
    var e := Part(Wants("full", "emotions"), AnalyzeEmotions(env, transcript));
    var t := Part(Wants("full", "topics"), ExtractTopics(env, transcript));
    var q := Part(Wants("full", "questions"), ExtractQuestions(env, transcript));
    assert Run(env, transcript, "full") == Traced(Analysis(e.value, t.value, q.value), e.events + t.events + q.events);
    assert Wants("full", "emotions") && Wants("full", "topics") && Wants("full", "questions");
    Singletons3(e.events, t.events, q.events,
                Generate(EmotionAnalysis(transcript)), Generate(TopicExtraction(transcript)),
                Generate(QuestionExtraction(transcript)));
    Singletons3<string>(["emotions"], ["topics"], ["questions"], "emotions", "topics", "questions");
  }

  /** An analysis type that is none of the four names yields an empty mapping
      and calls nothing; it is not an error. */
  lemma {:induction false} RunUnknown(env: Env, transcript: string, analysisType: string)
    requires analysisType !in {"emotions", "topics", "questions", "full"}
    ensures IsEmpty(Run(env, transcript, analysisType).value)
    ensures Run(env, transcript, analysisType).events == []
  {
    assert !Wants(analysisType, "emotions") && !Wants(analysisType, "topics") && !Wants(analysisType, "questions");
  }

  /** A single-part type yields that one key and makes only its own call. */
  lemma {:induction false} RunSingle(env: Env, transcript: string)
    ensures Keys(Run(env, transcript, "topics").value) == ["topics"]
    ensures Run(env, transcript, "topics").events == [Generate(TopicExtraction(transcript))]
    ensures Run(env, transcript, "topics").value.topics == Some(ExtractTopics(env, transcript).value)
  {
    assert !Wants("topics", "emotions") && Wants("topics", "topics") && !Wants("topics", "questions");
  }
}

=== FILE: dicts.dfy ===
/** Python dicts with string keys and values, kept as their entries in
    insertion order (the order `.items()` and flattening follow). */
module Dicts {
  import opened Optional
  import opened Text

  type Dict = seq<(string, string)>

  /** The keys, in insertion order. */
  function Keys(d: Dict): (ks: seq<string>)
    ensures |ks| == |d|
    ensures forall i :: 0 <= i < |d| ==> ks[i] == d[i].0
  {
    if |d| == 0 then [] else [d[0].0] + Keys(d[1..])
  }

  /** No key is stored twice, as in every Python dict. */
  predicate UniqueKeys(d: Dict) {
    forall i, j :: 0 <= i < j < |d| ==> d[i].0 != d[j].0
  }

  /** Python `d.get(k)`: the value stored under `k`, if any. */
  function Get(d: Dict, k: string): (r: Option<string>)
    ensures r.None? <==> k !in Keys(d)
    ensures r.Some? ==> (k, r.value) in d
  {
    if |d| == 0 then None
    else if d[0].0 == k then Some(d[0].1)
    else Get(d[1..], k)
  }

  /** With unique keys, looking up an entry's key finds that entry's value. */
  lemma {:induction false} GetEntry(d: Dict, i: nat)
    requires UniqueKeys(d) && i < |d|
    ensures Get(d, d[i].0) == Some(d[i].1)
    decreases i
  {
    if i > 0 {
      assert d[i] == d[1..][i - 1];
      GetEntry(d[1..], i - 1);
    }
  }

  /** The keys of two dicts written one after the other. */
  lemma {:induction false} KeysAppend(d1: Dict, d2: Dict)
    ensures Keys(d1 + d2) == Keys(d1) + Keys(d2)
  {
  }

  /** A lookup in entries written one after the other finds the earlier
      dict's value first. */
  lemma {:induction false} GetAppend(d1: Dict, d2: Dict, k: string)
    ensures Get(d1 + d2, k) == if k in Keys(d1) then Get(d1, k) else Get(d2, k)
    decreases |d1|
  {
    if |d1| > 0 {
      assert (d1 + d2)[1..] == d1[1..] + d2;
      GetAppend(d1[1..], d2, k);
      assert Keys(d1) == [d1[0].0] + Keys(d1[1..]);
    } else {
      assert d1 + d2 == d2;
    }
  }

  /** Python `d.get(k, default)`. */
  function GetOr(d: Dict, k: string, default: string): string {
    Get(d, k).GetOr(default)
  }

  /** Names that occur once each. */
  predicate Distinct(names: seq<string>) {
    forall i, j :: 0 <= i < j < |names| ==> names[i] != names[j]
  }

  /** A dict filled by a sequence of conditional assignments: entry `i`
      sets key `fields[i].0` when its value is present and is skipped
      otherwise. */
  function Collect(fields: seq<(string, Option<string>)>): (d: Dict)
    ensures |d| <= |fields|
  {
    if |fields| == 0 then []
    else
      (if fields[0].1.Some? then [(fields[0].0, fields[0].1.value)] else [])
      + Collect(fields[1..])
  }

  /** The names of the conditional assignments. */
  function Names(fields: seq<(string, Option<string>)>): (ns: seq<string>)
    ensures |ns| == |fields|
    ensures forall i :: 0 <= i < |fields| ==> ns[i] == fields[i].0
  {
    seq(|fields|, i requires 0 <= i < |fields| => fields[i].0)
  }

  /** A collected dict holds only the names assigned, and with distinct
      names, holds each at most once. */
  lemma {:induction false} CollectKeys(fields: seq<(string, Option<string>)>)
    ensures forall k :: k in Keys(Collect(fields)) ==> k in Names(fields)
    ensures Distinct(Names(fields)) ==> UniqueKeys(Collect(fields))
    decreases |fields|
  {
    if |fields| > 0 {
      var head: Dict := if fields[0].1.Some? then [(fields[0].0, fields[0].1.value)] else [];
      var rest := Collect(fields[1..]);
      CollectKeys(fields[1..]);
      KeysAppend(head, rest);
      assert Names(fields) == [fields[0].0] + Names(fields[1..]);
      if Distinct(Names(fields)) {
        assert Distinct(Names(fields[1..]));
        assert fields[0].0 !in Names(fields[1..]);
        assert forall j :: 0 <= j < |rest| ==> rest[j].0 in Keys(rest);
      }
    }
  }

  /** With distinct names, looking a name up in the collected dict finds the
      value assigned to it, and nothing when that value is absent. */
  lemma {:induction false} CollectGet(fields: seq<(string, Option<string>)>, i: nat)
    requires i < |fields| && Distinct(Names(fields))
    ensures Get(Collect(fields), fields[i].0) == fields[i].1
    decreases i
  {
    var head: Dict := if fields[0].1.Some? then [(fields[0].0, fields[0].1.value)] else [];
    var rest := Collect(fields[1..]);
    assert Names(fields) == [fields[0].0] + Names(fields[1..]);
    assert Distinct(Names(fields[1..]));
    CollectKeys(fields[1..]);
    GetAppend(head, rest, fields[i].0);
    if i > 0 {
      assert fields[i] == fields[1..][i - 1];
      CollectGet(fields[1..], i - 1);
      assert fields[i].0 != fields[0].0;
    } else if fields[0].1.None? {
      assert fields[0].0 !in Names(fields[1..]);
    }
  }

  /** The line a key and its value become: Python `f"{k}: {v}"`. */
  function Entry(k: string, v: string): string {
    k + ": " + v
  }

  /** One `"k: v"` line per entry, in order. */
  function Entries(d: Dict): seq<string> {
    seq(|d|, i requires 0 <= i < |d| => Entry(d[i].0, d[i].1))
  }

  /** Python `"\n".join(f"{k}: {v}" for k, v in d.items())`. */
  function Flatten(d: Dict): string {
    Join("\n", Entries(d))
  }

  /** Flattened entries are read back line by line when no key or value
      holds a line break: one `"k: v"` line per entry, in order. */
  lemma {:induction false} FlattenLines(d: Dict)
    requires |d| > 0
    requires forall i :: 0 <= i < |d| ==> '\n' !in d[i].0 && '\n' !in d[i].1
    ensures Split(Flatten(d), "\n") == Entries(d)
    ensures forall i :: 0 <= i < |d| ==> Split(Flatten(d), "\n")[i] == d[i].0 + ": " + d[i].1
  {
    SplitJoin("\n", Entries(d));
  }

  /** Flattening follows insertion order: a dict extended with more
      entries flattens to the old text, a line break, and the new lines. */
  lemma {:induction false} FlattenAppend(d1: Dict, d2: Dict)
    requires |d1| > 0 && |d2| > 0
    ensures Flatten(d1 + d2) == Flatten(d1) + "\n" + Flatten(d2)
  {
    assert Entries(d1 + d2) == Entries(d1) + Entries(d2);
    JoinAppend("\n", Entries(d1), Entries(d2));
  }

  /** A value that is either a dict or a plain string, as the agents accept
      for client data. */
  datatype DictOrText = AsDict(entries: Dict) | AsText(text: string)

  /** What a prompt receives for such a value: a dict is flattened to
      `"k: v"` lines, anything else passes through unchanged. */
  function PromptText(v: DictOrText): string {
    match v
    case AsDict(d) => Flatten(d)
    case AsText(t) => t
  }
}

=== FILE: financial_advisor.dfy ===
/** The financial advisor agent: advisor recommendations from the client data
    the retrieval agent finds, one generation call read as a list of lines. */
module FinancialAdvisor {
  import opened Text
  import opened Dicts
  import opened Lines
  import opened Services
  import Retrieval

  /** `generate_recommendations`: one call on the client data (a mapping is
      flattened to `"k: v"` lines), its answer read as a list of lines. */
  function GenerateRecommendations(env: Env, clientData: DictOrText): (r: Traced<seq<string>>)
    ensures r.events == [Generate(AdvisorRecommendations(PromptText(clientData)))]
    ensures r.value == ParseLines(env.gen(AdvisorRecommendations(PromptText(clientData))))
    ensures CleanLines(r.value)
  {
    var out := Ask(env, AdvisorRecommendations(PromptText(clientData)));
    Traced(ParseLines(out.value), out.events)
  }

  /** The prompt receives a mapping as its entries, one `"k: v"` line each,
      in mapping order, when no key or value holds a line break; text is
      passed unchanged. */
  lemma {:induction false} ClientDataInPrompt(env: Env, clientData: DictOrText)
    requires clientData.AsDict? ==> |clientData.entries| > 0
    requires clientData.AsDict? ==> forall i :: 0 <= i < |clientData.entries| ==>
      '\n' !in clientData.entries[i].0 && '\n' !in clientData.entries[i].1
    ensures var p := GenerateRecommendations(env, clientData).events[0].prompt;
      && (clientData.AsDict? ==> Split(p.clientData, "\n") == Entries(clientData.entries))
      && (clientData.AsText? ==> p.clientData == clientData.text)
  {
    if clientData.AsDict? {
      FlattenLines(clientData.entries);
    }
  }

  /** An answer written as clean lines, one per recommendation, is read
      back as exactly those recommendations, in order. */
  lemma {:induction false} RecommendationsReadBack(env: Env, clientData: DictOrText, recs: seq<string>)
    requires CleanLines(recs) && forall k :: 0 <= k < |recs| ==> '\n' !in recs[k]
    requires env.gen(AdvisorRecommendations(PromptText(clientData))) == Join("\n", recs)
    ensures GenerateRecommendations(env, clientData).value == recs
  {
    ParseLinesOfJoin(recs);
  }

  /** `run`: a client retrieval with the fixed query, then recommendations
      from the retrieval's summary alone. The transcript the agent loads
      first is not used. */
  function Run(env: Env, state: Retrieval.Retriever, src: Retrieval.Sources): (r: Traced<(Retrieval.Retriever, seq<string>)>)
    ensures CleanLines(r.value.1)
    ensures var client := Retrieval.Run(env, state, src, "client", Retrieval.ClientProfileQuery);
      && r.value.0 == client.value.state
      && r.value.1 == ParseLines(env.gen(AdvisorRecommendations(client.value.result.summary)))
      && r.events == client.events + [Generate(AdvisorRecommendations(client.value.result.summary))]
    ensures forall p :: Generate(p) in r.events ==> p.RetrievalSummary? || p.AdvisorRecommendations?
  {
    var client := Retrieval.Run(env, state, src, "client", Retrieval.ClientProfileQuery);
    var recs := GenerateRecommendations(env, AsText(client.value.result.summary));
    Traced((client.value.state, recs.value), client.events + recs.events)
  }
}

=== FILE: lines.dfy ===
/** Reading a generated answer as a list: the idiom
    `[x.strip() for x in s.split("\n") if x.strip()]` that the dialogue,
    recommendation, advisor and bias agents all apply to their output. */
module Lines {
  import opened Text

  /** The stripped form of every non-blank entry of `xs`, in order. */
  function KeepNonBlank(xs: seq<string>): (r: seq<string>)
    ensures |r| <= |xs|
    ensures forall k :: 0 <= k < |r| ==> r[k] != "" && IsStripped(r[k])
  {
    if |xs| == 0 then []
    else
      var line := Strip(xs[0]);
      (if line == "" then [] else [line]) + KeepNonBlank(xs[1..])
  }

  /** Every entry is a non-blank, stripped line. */
  predicate CleanLines(xs: seq<string>) {
    forall k :: 0 <= k < |xs| ==> xs[k] != "" && IsStripped(xs[k])
  }

  /** The list a generated answer is read as: its lines, stripped, blank
      ones dropped. */
  function ParseLines(s: string): (r: seq<string>)
    ensures CleanLines(r)
  {
    KeepNonBlank(Split(s, "\n"))
  }

  /** Filtering distributes over concatenation, so order is kept. */
  lemma {:induction false} KeepNonBlankAppend(xs: seq<string>, ys: seq<string>)
    ensures KeepNonBlank(xs + ys) == KeepNonBlank(xs) + KeepNonBlank(ys)
    decreases |xs|
  {
    if |xs| > 0 {
      var head := if Strip(xs[0]) == "" then [] else [Strip(xs[0])];
      assert (xs + ys)[0] == xs[0];
      assert (xs + ys)[1..] == xs[1..] + ys;
      assert KeepNonBlank(xs + ys) == head + KeepNonBlank(xs[1..] + ys);
      assert KeepNonBlank(xs) == head + KeepNonBlank(xs[1..]);
      KeepNonBlankAppend(xs[1..], ys);
      assert head + (KeepNonBlank(xs[1..]) + KeepNonBlank(ys))
          == (head + KeepNonBlank(xs[1..])) + KeepNonBlank(ys);
    } else {
      assert xs + ys == ys;
    }
  }

  /** Every kept entry is the stripped form of an input entry. */
  lemma {:induction false} KeepNonBlankSources(xs: seq<string>)
    ensures forall k :: 0 <= k < |KeepNonBlank(xs)| ==>
      exists i :: 0 <= i < |xs| && KeepNonBlank(xs)[k] == Strip(xs[i])
    decreases |xs|
  {
    if |xs| > 0 {
      var head := if Strip(xs[0]) == "" then [] else [Strip(xs[0])];
      var tail := KeepNonBlank(xs[1..]);
      var r := KeepNonBlank(xs);
      assert r == head + tail;
      forall k | 0 <= k < |r|
        ensures exists i :: 0 <= i < |xs| && r[k] == Strip(xs[i])
      {
        if k < |head| {
          assert r[k] == Strip(xs[0]);
        } else {
          assert r[k] == tail[k - |head|];
          assert exists i :: 0 <= i < |xs[1..]| && tail[k - |head|] == Strip(xs[1..][i]) by {
            KeepNonBlankSources(xs[1..]);
          }
          var i :| 0 <= i < |xs[1..]| && tail[k - |head|] == Strip(xs[1..][i]);
          assert r[k] == Strip(xs[i + 1]);
        }
      }
    } else {
      assert KeepNonBlank(xs) == [];
    }
  }

  /** Every input entry that is not blank is kept, stripped. */
  lemma {:induction false} KeepNonBlankKeeps(xs: seq<string>)
    ensures forall i :: 0 <= i < |xs| && Strip(xs[i]) != "" ==> Strip(xs[i]) in KeepNonBlank(xs)
    decreases |xs|
  {
    if |xs| > 0 {
      var head := if Strip(xs[0]) == "" then [] else [Strip(xs[0])];
      var tail := KeepNonBlank(xs[1..]);
      assert KeepNonBlank(xs) == head + tail;
      forall i | 0 <= i < |xs| && Strip(xs[i]) != ""
        ensures Strip(xs[i]) in KeepNonBlank(xs)
      {
        if i > 0 {
          assert Strip(xs[i]) in tail by {
            assert xs[i] == xs[1..][i - 1];
            KeepNonBlankKeeps(xs[1..]);
          }
        } else {
          assert KeepNonBlank(xs)[0] == Strip(xs[0]);
        }
      }
    }
  }

  /** Kept entries keep their order: of two non-blank entries, the earlier
      one's stripped form is kept at an earlier position. */
  lemma {:induction false} KeepNonBlankOrder(xs: seq<string>, i: nat, j: nat)
    requires i < j < |xs| && Strip(xs[i]) != "" && Strip(xs[j]) != ""
    ensures exists a, b ::
      && 0 <= a < b < |KeepNonBlank(xs)|
      && KeepNonBlank(xs)[a] == Strip(xs[i])
      && KeepNonBlank(xs)[b] == Strip(xs[j])
  {
    var pre, post := xs[..j], xs[j..];
    assert xs == pre + post;
    KeepNonBlankAppend(pre, post);
    KeepNonBlankKeeps(pre);
    assert pre[i] == xs[i];
    var a :| 0 <= a < |KeepNonBlank(pre)| && KeepNonBlank(pre)[a] == Strip(xs[i]);
    assert post[0] == xs[j];
    assert KeepNonBlank(post)[0] == Strip(xs[j]);
    var b := |KeepNonBlank(pre)|;
    assert KeepNonBlank(xs)[a] == Strip(xs[i]) && KeepNonBlank(xs)[b] == Strip(xs[j]);
  }

  /** Nothing survives exactly when every entry is blank. */
  lemma {:induction false} KeepNonBlankEmpty(xs: seq<string>)
    ensures KeepNonBlank(xs) == [] <==> forall k :: 0 <= k < |xs| ==> AllSpace(xs[k])
    decreases |xs|
  {
    if |xs| > 0 {
      KeepNonBlankEmpty(xs[1..]);
      StripEmptyIffBlank(xs[0]);
      if forall k :: 0 <= k < |xs[1..]| ==> AllSpace(xs[1..][k]) {
        assert forall k :: 1 <= k < |xs| ==> AllSpace(xs[k]) by {
          forall k | 1 <= k < |xs| ensures AllSpace(xs[k]) {
            assert xs[k] == xs[1..][k - 1];
          }
        }
      }
    }
  }

  /** Text is blank exactly when all of its parts and separators are. */
  lemma {:induction false} AllSpaceConcat(a: string, b: string)
    ensures AllSpace(a + b) <==> AllSpace(a) && AllSpace(b)
  {
    if AllSpace(a + b) {
      forall i | 0 <= i < |a| ensures IsSpace(a[i]) {
        assert a[i] == (a + b)[i];
      }
      forall i | 0 <= i < |b| ensures IsSpace(b[i]) {
        assert b[i] == (a + b)[|a| + i];
      }
    }
  }

  /** A join by newlines is blank exactly when every part is. */
  lemma {:induction false} AllSpaceJoin(xs: seq<string>)
    requires |xs| > 0
    ensures AllSpace(Join("\n", xs)) <==> forall k :: 0 <= k < |xs| ==> AllSpace(xs[k])
    decreases |xs|
  {
    if |xs| > 1 {
      assert Join("\n", xs) == xs[0] + "\n" + Join("\n", xs[1..]);
      assert AllSpace("\n");
      AllSpaceJoin(xs[1..]);
      AllSpaceConcat(xs[0], "\n");
      AllSpaceConcat(xs[0] + "\n", Join("\n", xs[1..]));
      if forall k :: 0 <= k < |xs[1..]| ==> AllSpace(xs[1..][k]) {
        forall k | 1 <= k < |xs| ensures AllSpace(xs[k]) {
          assert xs[k] == xs[1..][k - 1];
        }
      }
    }
  }

  /** An answer yields no entries exactly when it is blank. */
  lemma {:induction false} ParseLinesEmptyIffBlank(s: string)
    ensures ParseLines(s) == [] <==> AllSpace(s)
  {
    KeepNonBlankEmpty(Split(s, "\n"));
    AllSpaceJoin(Split(s, "\n"));
    JoinSplit(s, "\n");
  }

  /** No parsed entry spans a line break. */
  lemma {:induction false} ParsedLinesSingleLine(s: string)
    ensures forall k :: 0 <= k < |ParseLines(s)| ==> '\n' !in ParseLines(s)[k]
  {
    var pieces := Split(s, "\n");
    SplitPiecesLackSeparator(s, "\n");
    KeepNonBlankSources(pieces);
    forall k | 0 <= k < |ParseLines(s)|
      ensures '\n' !in ParseLines(s)[k]
    {
      var i :| 0 <= i < |pieces| && ParseLines(s)[k] == Strip(pieces[i]);
      ContainsChar(pieces[i], '\n');
      StripHasNoNewline(pieces[i]);
    }
  }

  /** Stripping never introduces a line break. */
  lemma {:induction false} StripHasNoNewline(x: string)
    requires '\n' !in x
    ensures '\n' !in Strip(x)
  {
  }

  /** Text with one line break splits into the line before it and the
      split of the rest. */
  lemma {:induction false} SplitFirstLine(a: string, b: string)
    requires '\n' !in a
    ensures Split(a + "\n" + b, "\n") == [a] + Split(b, "\n")
  {
    var s := a + "\n" + b;
    assert OccursAt(s, "\n", |a|) by { assert s[|a|..|a| + 1] == "\n"; }
    forall p | 0 <= p < |a|
      ensures !OccursAt(s, "\n", p)
    {
      assert s[p] == a[p];
      assert s[p..p + 1] == [s[p]];
    }
    assert Find(s, "\n", 0).value == |a|;
    assert s[..|a|] == a;
    assert s[|a| + 1..] == b;
  }

  /** A single line yields its stripped form, or nothing if it is blank. */
  lemma {:induction false} ParseOneLine(s: string)
    requires '\n' !in s
    ensures ParseLines(s) == (if Strip(s) == "" then [] else [Strip(s)])
  {
    ContainsChar(s, '\n');
  }

  /** Parsing reads the first line, then the rest, in order. */
  lemma {:induction false} ParseLinesCons(a: string, b: string)
    requires '\n' !in a
    ensures ParseLines(a + "\n" + b) == ParseLines(a) + ParseLines(b)
  {
    SplitFirstLine(a, b);
    ParseOneLine(a);
    KeepNonBlankAppend([a], Split(b, "\n"));
  }

  /** Entries that are stripped, non-blank single lines survive being
      written one per line and parsed back. */
  lemma {:induction false} ParseLinesOfJoin(xs: seq<string>)
    requires forall k :: 0 <= k < |xs| ==> xs[k] != "" && IsStripped(xs[k]) && '\n' !in xs[k]
    ensures ParseLines(Join("\n", xs)) == xs
  {
    if |xs| > 0 {
      SplitJoin("\n", xs);
      KeepStripped(xs);
    } else {
      assert Split("", "\n") == [""];
    }
  }

  /** Entries already stripped and non-blank are all kept, unchanged. */
  lemma {:induction false} KeepStripped(xs: seq<string>)
    requires forall k :: 0 <= k < |xs| ==> xs[k] != "" && IsStripped(xs[k])
    ensures KeepNonBlank(xs) == xs
    decreases |xs|
  {
    if |xs| > 0 {
      StripStripped(xs[0]);
      KeepStripped(xs[1..]);
    }
  }
}

=== FILE: meeting_notes.dfy ===
/** The meeting notes agent: one generation call whose answer is cut into
    the meeting notes and the agreed action items. */
module MeetingNotes {
  import opened Optional
  import opened Text
  import opened Sections
  import opened Dicts
  import opened Services

  const NotesHeader: string := "Client/Advisor Meeting Notes"
  const ActionsHeader: string := "Agreed upon action items"

  /** The keys the notes may hold, in insertion order. */
  const NoteKeys: seq<string> := ["meeting_notes", "action_items"]

  /** The notes section: present when its header occurs, and then the
      stripped text after the header, up to a repeat of it and then up to
      the action-items header. */
  function NotesSection(out: string): (r: Option<string>)
    ensures r.Some? <==> Contains(out, NotesHeader)
    ensures r.Some? ==> IsStripped(r.value)
  {
    if Contains(out, NotesHeader) then Some(Strip(SectionText(out, NotesHeader, ActionsHeader))) else None
  }

  /** The action items: present when their header occurs, and then the
      stripped text between the header's first and next occurrence. */
  function ActionsSection(out: string): (r: Option<string>)
    ensures r.Some? <==> Contains(out, ActionsHeader)
    ensures r.Some? ==> IsStripped(r.value)
  {
    if Contains(out, ActionsHeader) then Some(Strip(After(out, ActionsHeader))) else None
  }

  /** The two assignments that fill the notes, in key order. */
  function NoteFields(out: string): (fs: seq<(string, Option<string>)>)
    ensures Names(fs) == NoteKeys
  {
    [("meeting_notes", NotesSection(out)), ("action_items", ActionsSection(out))]
  }

  /** The sections of the answer; there is no raw fallback key. */
  function ParseMeetingNotes(out: string): Dict {
    Collect(NoteFields(out))
  }

  /** Each key is present exactly when its header occurs, with the text its
      header delimits; no other key appears and none twice. */
  lemma {:induction false} MeetingNotesLookup(out: string)
    ensures Get(ParseMeetingNotes(out), "meeting_notes") == NotesSection(out)
    ensures Get(ParseMeetingNotes(out), "action_items") == ActionsSection(out)
    ensures forall k :: k in Keys(ParseMeetingNotes(out)) ==> k in NoteKeys
    ensures UniqueKeys(ParseMeetingNotes(out))
  {
    assert Distinct(NoteKeys);
    CollectKeys(NoteFields(out));
    CollectGet(NoteFields(out), 0);
    CollectGet(NoteFields(out), 1);
  }

  /** An answer holding neither header gives an empty mapping. */
  lemma {:induction false} NoHeadersNoNotes(out: string)
    requires !Contains(out, NotesHeader) && !Contains(out, ActionsHeader)
    ensures ParseMeetingNotes(out) == []
  {
    var fs := NoteFields(out);
    assert fs[1..][1..] == [];
    assert Collect(fs[1..]) == [] + Collect(fs[1..][1..]);
    assert Collect(fs) == [] + Collect(fs[1..]);
  }

  /** Without the action-items header, the notes run from the notes header
      to the end of the answer, or to a repeat of the notes header. */
  lemma {:induction false} NotesWithoutActions(out: string)
    requires Contains(out, NotesHeader) && !Contains(out, ActionsHeader)
    ensures exists body ::
      && RunsUntil(out, First(out, NotesHeader) + |NotesHeader|, NotesHeader, body)
      && NotesSection(out) == Some(Strip(body))
  {
    AfterRunsUntil(out, NotesHeader);
    SectionWithoutStop(out, NotesHeader, ActionsHeader);
    var body := After(out, NotesHeader);
    assert NotesSection(out) == Some(Strip(body));
  }

  /** `create_meeting_notes`: one call on the transcript, then the sections
      of its answer. */
  function CreateMeetingNotes(env: Env, transcript: string): (r: Traced<Dict>)
    ensures r.events == [Generate(MeetingNotes(transcript))]
    ensures r.value == ParseMeetingNotes(env.gen(MeetingNotes(transcript)))
    ensures |r.value| <= 2
  {
    var out := Ask(env, MeetingNotes(transcript));
    Traced(ParseMeetingNotes(out.value), out.events)
  }
}

=== FILE: optional.dfy ===
/** Failure-carrying values shared by every module of the model. */
module Optional {

  /** A value that may be absent: a Python dict key that is missing, a
      `None` argument, a search that found no occurrence. */
  datatype Option<+T> = None | Some(value: T) {

    /** The value, or `default` when absent (Python's `d.get(k, default)`). */
    function GetOr(default: T): T {
      match this
      case Some(v) => v
      case None => default
    }
  }

  /** The outcome of an operation that may raise: `Error` carries the
      exception's message. */
  datatype Result<+T> = Ok(value: T) | Error(message: string)
}

=== FILE: orchestrator.dfy ===
/** The orchestrator: the pipeline that runs the agents in a fixed order and
    the plain-text report rendered from the pipeline's results. */
module Orchestrator {
  import opened Optional
  import opened Text
  import opened Dicts
  import opened Lines
  import opened Services
  import opened Seqs
  import Retrieval
  import Dialogue
  import Summarization
  import Recommendation

  /** What `run_pipeline` returns: exactly the three results, under the keys
      `dialogue_analysis`, `summary` and `recommendations`. */
  datatype PipelineResults = PipelineResults(
    dialogueAnalysis: Dialogue.Analysis,
    summary: Dict,
    recommendations: Recommendation.Recommendations)

  /** `run_pipeline`: load the data, run the full dialogue analysis, create
      the structured summary, then the recommendations with that summary.
      The retrieval agent's state is the one the orchestrator holds. */
  function RunPipeline(env: Env, r: Retrieval.Retriever, src: Retrieval.Sources, transcript: string):
    (p: Traced<(Retrieval.Retriever, PipelineResults)>)
    ensures |p.events| > 0 && p.events[0] == Services.LoadData
    ensures p.value.1.dialogueAnalysis == Dialogue.Run(env, transcript, "full").value
    ensures Get(p.value.1.summary, "full_summary").Some?
    ensures p.value.1.summary == Summarization.Run(env, transcript, "structured").value.entries
    ensures var recs := Recommendation.Run(env, Retrieval.LoadData(env, r, src).value, src, transcript,
                                           Some(p.value.1.summary));
      && p.value.1.recommendations == recs.value.1
      && p.value.0 == recs.value.0
  {
    var loaded := Retrieval.LoadData(env, r, src);
    var analysis := Dialogue.Run(env, transcript, "full");
    var summary := Summarization.Run(env, transcript, "structured");
    var recs := Recommendation.Run(env, loaded.value, src, transcript, Some(summary.value.entries));
    Traced((recs.value.0, PipelineResults(analysis.value, summary.value.entries, recs.value.1)),
           loaded.events + analysis.events + summary.events + recs.events)
  }

  /** The stages run once each, in order: the load, the three analysis calls,
      then the structured summary, which runs the analysis again before its
      own call. */
  lemma {:induction false} PipelineOpening(env: Env, r: Retrieval.Retriever, src: Retrieval.Sources, transcript: string)
    ensures var p := RunPipeline(env, r, src, transcript);
      var a := Dialogue.Run(env, transcript, "full").value;
      && |p.events| >= 8
      && p.events[..8] ==
           [Services.LoadData,
            Generate(EmotionAnalysis(transcript)), Generate(TopicExtraction(transcript)),
            Generate(QuestionExtraction(transcript)),
            Generate(EmotionAnalysis(transcript)), Generate(TopicExtraction(transcript)),
            Generate(QuestionExtraction(transcript)),
            Generate(Summarization.StructuredPrompt(transcript, a))]
  {
    PipelineStarts(env, r, src, transcript);
    OpeningCalls(env, r, src, transcript);
  }

  /** The load, the analysis and the structured summary make eight calls:
      the load, the three analysis calls, the same three again, and the
      structured call. */
  lemma {:induction false} OpeningCalls(env: Env, r: Retrieval.Retriever, src: Retrieval.Sources, transcript: string)
    ensures var a := Dialogue.Run(env, transcript, "full").value;
      Retrieval.LoadData(env, r, src).events + Dialogue.Run(env, transcript, "full").events
      + Summarization.Run(env, transcript, "structured").events ==
           [Services.LoadData,
            Generate(EmotionAnalysis(transcript)), Generate(TopicExtraction(transcript)),
            Generate(QuestionExtraction(transcript)),
            Generate(EmotionAnalysis(transcript)), Generate(TopicExtraction(transcript)),
            Generate(QuestionExtraction(transcript)),
            Generate(Summarization.StructuredPrompt(transcript, a))]
  {
    var analysis := Dialogue.Run(env, transcript, "full");
    Dialogue.RunFull(env, transcript);
    Summarization.RunStructured(env, transcript);
    Opening(Retrieval.LoadData(env, r, src).events, analysis.events, Summarization.Run(env, transcript, "structured").events,
            Generate(Summarization.StructuredPrompt(transcript, analysis.value)));
  }

  /** The pipeline's calls begin with those of the load, the analysis and
      the structured summary, in that order. */
  lemma {:induction false} PipelineStarts(env: Env, r: Retrieval.Retriever, src: Retrieval.Sources, transcript: string)
    ensures var p := RunPipeline(env, r, src, transcript);
      var opening := Retrieval.LoadData(env, r, src).events + Dialogue.Run(env, transcript, "full").events
                     + Summarization.Run(env, transcript, "structured").events;
      |opening| <= |p.events| && p.events[..|opening|] == opening
  {
    var loaded := Retrieval.LoadData(env, r, src);
    var summary := Summarization.Run(env, transcript, "structured");
    var recs := Recommendation.Run(env, loaded.value, src, transcript, Some(summary.value.entries));
    var opening := loaded.events + Dialogue.Run(env, transcript, "full").events + summary.events;
    assert RunPipeline(env, r, src, transcript).events == opening + recs.events;
  }

  /** Three runs of calls: a load, three calls, then the same three calls
      and one more. */
  lemma {:induction false} Opening(l: seq<Event>, a: seq<Event>, s: seq<Event>, x: Event)
    requires |a| == 3 && l == [Services.LoadData] && s == [a[0], a[1], a[2], x]
    ensures l + a + s == [Services.LoadData, a[0], a[1], a[2], a[0], a[1], a[2], x]
  {
  }

  /** The pipeline's summary is the structured summary's sections, and its
      last call asks for next steps on that summary and the product
      recommendations it returns. */
  lemma {:induction false} PipelineClosing(env: Env, r: Retrieval.Retriever, src: Retrieval.Sources, transcript: string)
    ensures var p := RunPipeline(env, r, src, transcript);
      var a := Dialogue.Run(env, transcript, "full").value;
      && p.value.1.summary == Summarization.ParseStructuredSummary(env.gen(Summarization.StructuredPrompt(transcript, a)))
      && |p.events| > 0
      && p.events[|p.events| - 1] ==
           Generate(Recommendation.NextStepsPrompt(p.value.1.summary, p.value.1.recommendations.productRecommendations))
  {
    var loaded := Retrieval.LoadData(env, r, src);
    var summary := Summarization.Run(env, transcript, "structured");
    var entries := summary.value.entries;
    var recs := Recommendation.Run(env, loaded.value, src, transcript, Some(entries));
    var g := Recommendation.Gather(env, loaded.value, src, transcript);
    var p := RunPipeline(env, r, src, transcript);
    assert p.value.1.summary == entries && p.value.1.recommendations == recs.value.1;
    assert p.events == (loaded.events + Dialogue.Run(env, transcript, "full").events + summary.events) + recs.events;
    Summarization.RunStructured(env, transcript);
    assert entries != [] by { assert Get(entries, "full_summary").Some?; }
    Recommendation.RunWithSummary(env, loaded.value, src, transcript, entries);
    var x := Generate(Recommendation.NextStepsPrompt(entries, g.value.products));
    assert p.events[|p.events| - 1] == x by {
      assert recs.events == g.events + [x];
    }
  }

  /** A report list: a bullet per entry on its own line, or `none` when the
      list is empty. */
  function FormatList(xs: seq<string>, none: string): (r: string)
    ensures xs == [] ==> r == none
    ensures xs != [] ==> |r| >= 2 && r[..2] == "- "
  {
    if xs == [] then none else "- " + Join("\n- ", xs)
  }

  /** One bullet line per entry. */
  function Bullets(xs: seq<string>): (bs: seq<string>)
    ensures |bs| == |xs|
  {
    seq(|xs|, i requires 0 <= i < |xs| => "- " + xs[i])
  }

  /** A non-empty list is its bullet lines joined by line breaks. */
  lemma {:induction false} FormatListIsBullets(xs: seq<string>, none: string)
    requires xs != []
    ensures FormatList(xs, none) == Join("\n", Bullets(xs))
    decreases |xs|
  {
    if |xs| > 1 {
      var rest := xs[1..];
      FormatListIsBullets(rest, none);
      assert Bullets(xs) == [Bullets(xs)[0]] + Bullets(rest);
      JoinCons("\n", Bullets(xs)[0], Bullets(rest));
      assert "- " + Join("\n- ", xs) == "- " + xs[0] + "\n" + ("- " + Join("\n- ", rest));
    }
  }

  /** For entries without line breaks, the rendered list reads back line by
      line as the entries, in order, each behind `"- "`. */
  lemma {:induction false} FormatListLines(xs: seq<string>, none: string)
    requires xs != []
    requires forall k :: 0 <= k < |xs| ==> '\n' !in xs[k]
    ensures Split(FormatList(xs, none), "\n") == Bullets(xs)
    ensures forall k :: 0 <= k < |xs| ==> Split(FormatList(xs, none), "\n")[k] == "- " + xs[k]
  {
    FormatListIsBullets(xs, none);
    forall k | 0 <= k < |xs|
      ensures "\n"[0] !in Bullets(xs)[k]
    {
      assert Bullets(xs)[k] == "- " + xs[k];
    }
    SplitJoin("\n", Bullets(xs));
  }

  /** A line break followed by the eight spaces every line of the report
      template starts with. */
  const Indent: string := "\n        "

  /** The rule above and below the report's two banners: 39 `=` signs. */
  const Rule: string := "======================================="

  /** A banner: a title between two rules. */
  function Banner(title: string): string {
    Indent + Rule + Indent + title + Indent + Rule
  }

  /** The seven headings, in report order. */
  const Headings: seq<string> := [
    "CLIENT GOALS & QUESTIONS:",
    "ADVISOR'S ANALYSIS & RECOMMENDATIONS:",
    "ACTION ITEMS & NEXT STEPS:",
    "CLIENT'S REACTIONS & CONCERNS:",
    "UNMET FINANCIAL NEEDS:",
    "PRODUCT RECOMMENDATIONS:",
    "SUGGESTED NEXT STEPS:"]

  /** What stands between the sections: the title banner and a blank line
      before the first, blank lines between, the insights banner between
      the summary's sections and the recommendations, and the template's
      closing line after the last. */
  const Gaps: seq<string> := [
    Banner("MEETING ANALYSIS REPORT") + Indent,
    Indent, Indent, Indent,
    Indent + Banner("ADDITIONAL INSIGHTS") + Indent,
    Indent, Indent,
    Indent]

  /** A section: its heading on one line and its value on the next. */
  function Section(heading: string, value: string): string {
    Indent + heading + Indent + value
  }

  /** A summary section's value, `"N/A"` when the mapping lacks its key. */
  function SummaryValue(summary: Dict, key: string): (v: string)
    ensures Get(summary, key).None? ==> v == "N/A"
    ensures Get(summary, key).Some? ==> v == Get(summary, key).value
  {
    GetOr(summary, key, "N/A")
  }

  /** The seven section values, in report order: the four summary sections,
      then the three recommendation lists ("None identified" for no unmet
      needs, "None" for no products or next steps). */
  function Values(results: PipelineResults): (vs: seq<string>)
    ensures |vs| == 7
  {
    var recs := results.recommendations;
    [SummaryValue(results.summary, "client_goals"),
     SummaryValue(results.summary, "advisor_recommendations"),
     SummaryValue(results.summary, "action_items"),
     SummaryValue(results.summary, "client_reactions"),
     FormatList(recs.unmetNeeds, "None identified"),
     FormatList(recs.productRecommendations, "None"),
     FormatList(recs.nextSteps, "None")]
  }

  /** Gaps and sections alternating, a gap first and last. */
  function Interleave(gaps: seq<string>, sections: seq<string>): (ps: seq<string>)
    requires |gaps| == |sections| + 1
    ensures |ps| == 2 * |sections| + 1
    decreases |sections|
  {
    if sections == [] then gaps
    else [gaps[0], sections[0]] + Interleave(gaps[1..], sections[1..])
  }

  /** Section `i` is the part right after the first `i` sections and the
      first `i + 1` gaps. */
  lemma {:induction false} InterleaveAt(gaps: seq<string>, sections: seq<string>, i: nat)
    requires |gaps| == |sections| + 1 && i < |sections|
    ensures Interleave(gaps, sections)[2 * i + 1] == sections[i]
    decreases i
  {
    if i > 0 {
      InterleaveAt(gaps[1..], sections[1..], i - 1);
    }
  }

  /** The sections of the report: each heading above its value. */
  function Sections(values: seq<string>): (ss: seq<string>)
    requires |values| == 7
    ensures |ss| == 7
  {
    seq(7, i requires 0 <= i < 7 => Section(Headings[i], values[i]))
  }

  /** The report's pieces: gaps and sections alternating, a gap first. */
  function Parts(values: seq<string>): (ps: seq<string>)
    requires |values| == 7
    ensures |ps| == 15
  {
    Interleave(Gaps, Sections(values))
  }

  /** The report template filled with seven section values. */
  function Layout(values: seq<string>): string
    requires |values| == 7
  {
    Concat(Parts(values))
  }

  /** `generate_report`'s text. */
  function Report(results: PipelineResults): string {
    Layout(Values(results))
  }

  /** Where section `i` of the filled template starts. */
  function SectionStart(values: seq<string>, i: nat): nat
    requires |values| == 7 && i < 7
  {
    |Concat(Parts(values)[..2 * i + 1])|
  }

  /** Section `i` — its heading, a line break and the eight-space indent,
      its value — stands in the filled template at its start position, and
      it ends before any later section starts: the headings appear in the
      fixed order, each directly above its value. */
  lemma {:induction false} LayoutSections(values: seq<string>, i: nat, j: nat)
    requires |values| == 7 && i < j < 7
    ensures OccursAt(Layout(values), Section(Headings[i], values[i]), SectionStart(values, i))
    ensures SectionStart(values, i) + |Section(Headings[i], values[i])| <= SectionStart(values, j)
  {
    var parts := Parts(values);
    InterleaveAt(Gaps, Sections(values), i);
    ConcatPart(parts, 2 * i + 1);
    ConcatBefore(parts, 2 * i + 1, 2 * j + 1);
  }

  /** An empty list of unmet needs renders as "None identified", and an empty
      list of products or of next steps as "None". */
  lemma {:induction false} EmptyListsRender(results: PipelineResults)
    ensures results.recommendations.unmetNeeds == [] <==> Values(results)[4] == "None identified"
    ensures results.recommendations.productRecommendations == [] <==> Values(results)[5] == "None"
    ensures results.recommendations.nextSteps == [] <==> Values(results)[6] == "None"
  {
    var recs := results.recommendations;
    assert "None identified"[..2] == "No" && "None"[..2] == "No";
    FormatListNotDefault(recs.unmetNeeds, "None identified");
    FormatListNotDefault(recs.productRecommendations, "None");
    FormatListNotDefault(recs.nextSteps, "None");
  }

  /** A non-empty list never renders as a default that does not start with
      a bullet. */
  lemma {:induction false} FormatListNotDefault(xs: seq<string>, none: string)
    requires |none| >= 2 && none[..2] != "- "
    ensures FormatList(xs, none) == none <==> xs == []
  {
  }

  /** `generate_report`: with no results, run the pipeline first and render
      its results; with results, render them and call nothing. Saving the
      report is left out; its failure is caught and changes nothing. */
  function GenerateReport(env: Env, r: Retrieval.Retriever, src: Retrieval.Sources, transcript: string,
                          results: Option<PipelineResults>): (rep: Traced<string>)
    ensures results.Some? ==> rep.events == [] && rep.value == Report(results.value)
    ensures results.None? ==> |rep.events| > 0 && rep.events[0] == Services.LoadData
    ensures results.None? ==> rep.value == Report(RunPipeline(env, r, src, transcript).value.1)
  {
    if results.Some? then Traced(Report(results.value), [])
    else
      var p := RunPipeline(env, r, src, transcript);
      Traced(Report(p.value.1), p.events)
  }
}

=== FILE: portfolio_checker.dfy ===
/** The product portfolio checker: product inquiries drawn from the
    transcript, each looked up in the product index, and a finding for every
    inquiry the portfolio does not answer. */
module PortfolioChecker {
  import opened Optional
  import opened Text
  import opened Services
  import opened Seqs

  /** One inquiry of the parsed answer; a field is `None` when its key is
      missing. */
  datatype Inquiry = Inquiry(productType: Option<string>, specificNeed: Option<string>)

  /** The parsed answer: the `product_inquiries` list, when the key is
      present. */
  datatype Inquiries = Inquiries(productInquiries: Option<seq<Inquiry>>)

  /** What an answer that is not valid JSON is read as: an empty list of
      inquiries. */
  const Unparsed: Inquiries := Inquiries(Some([]))

  /** `extract_product_inquiries`: one call on the transcript, its answer
      read by `parse` (which stands for `json.loads`; `None` is a decoding
      error). */
  function ExtractProductInquiries(env: Env, parse: string -> Option<Inquiries>, transcript: string):
    (r: Traced<Inquiries>)
    ensures r.events == [Generate(ProductInquiries(transcript))]
    ensures parse(env.gen(ProductInquiries(transcript))).None? ==> r.value == Unparsed
    ensures parse(env.gen(ProductInquiries(transcript))).Some? ==>
      r.value == parse(env.gen(ProductInquiries(transcript))).value
  {
    var out := Ask(env, ProductInquiries(transcript));
    var parsed := parse(out.value);
    Traced(if parsed.None? then Unparsed else parsed.value, out.events)
  }

  /** The inquiries the check goes through: none when the key is missing. */
  function InquiryList(doc: Inquiries): seq<Inquiry> {
    doc.productInquiries.GetOr([])
  }

  /** The product type, empty when missing. */
  function ProductType(inq: Inquiry): string {
    inq.productType.GetOr("")
  }

  /** The search query: the product type and the specific need, each empty
      when missing, separated by one space. */
  function Query(inq: Inquiry): (q: string)
    ensures |q| == |ProductType(inq)| + 1 + |inq.specificNeed.GetOr("")|
    ensures q[|ProductType(inq)|] == ' '
    ensures q[..|ProductType(inq)|] == ProductType(inq)
  {
    ProductType(inq) + " " + inq.specificNeed.GetOr("")
  }

  /** How many results the check asks the index for: only the top one. */
  const TopOnly: nat := 1

  const GapOpening: string := "- During the meeting, Haris asked whether Raiffeisen has a solution for "
  const GapClosing: string := " which does not currently exist."

  /** The finding for an inquiry the portfolio does not answer: a fixed
      sentence around the lower-cased product type. */
  function Gap(productType: string): (f: string)
    ensures Contains(f, Lower(productType))
    ensures |f| == |GapOpening| + |productType| + |GapClosing|
    ensures f[..|GapOpening|] == GapOpening
  {
    ContainsMiddle(GapOpening, Lower(productType), GapClosing);
    GapOpening + Lower(productType) + GapClosing
  }

  /** A relevance reply counts as "relevant" only when, stripped and
      lower-cased, it is exactly `"true"`. */
  predicate Relevant(reply: string) {
    Lower(Strip(reply)) == "true"
  }

  /** The replies that count as relevant are the case variants of `"true"`
      with surrounding white space. */
  lemma {:induction false} RelevantReplies(reply: string)
    ensures Relevant(reply) <==>
      var s := Strip(reply);
      && |s| == 4
      && (s[0] == 't' || s[0] == 'T') && (s[1] == 'r' || s[1] == 'R')
      && (s[2] == 'u' || s[2] == 'U') && (s[3] == 'e' || s[3] == 'E')
  {
    LowerIsTrue(Strip(reply));
  }

  /** What the top-one search finds: the index's results, or nothing when
      there is no index (the vector store's `search` answers `[]` when it
      is not initialised). */
  function TopResults(env: Env, store: Option<Index>, query: string): seq<string> {
    if store.Some? then env.search(store.value, query, TopOnly) else []
  }

  /** Whether the portfolio answers an inquiry: a top result exists, the
      model judges it relevant, and its content is not blank. */
  predicate Answered(env: Env, store: Option<Index>, inq: Inquiry) {
    var results := TopResults(env, store, Query(inq));
    && results != []
    && Relevant(env.gen(Relevance(Query(inq), results[0])))
    && Strip(results[0]) != ""
  }

  /** One inquiry of `check_against_portfolio`: a top-one search, then,
      when something is found, one relevance call on the top result. An
      irrelevant result gives a finding and ends the inquiry; otherwise an
      empty result list or a blank top result gives one. */
  function CheckInquiry(env: Env, store: Option<Index>, inq: Inquiry): (r: Traced<Option<string>>)
    ensures r.value.None? <==> Answered(env, store, inq)
    ensures r.value.Some? ==> r.value.value == Gap(ProductType(inq))
    ensures store.Some? ==> |r.events| > 0 && r.events[0] == Search(store.value, Query(inq), TopOnly)
    ensures var results := TopResults(env, store, Query(inq));
      Generations(r.events) == (if results == [] then [] else [Relevance(Query(inq), results[0])])
  {
    var q := Query(inq);
    var results := TopResults(env, store, q);
    var searched := if store.Some? then [Search(store.value, q, TopOnly)] else [];
    if results != [] then
      var reply := Ask(env, Relevance(q, results[0]));
      GenerationsAppend(searched, reply.events);
      if !Relevant(reply.value) then Traced(Some(Gap(ProductType(inq))), searched + reply.events)
      else if Strip(results[0]) == "" then Traced(Some(Gap(ProductType(inq))), searched + reply.events)
      else Traced(None, searched + reply.events)
    else
      Traced(Some(Gap(ProductType(inq))), searched)
  }

  /** The findings of one inquiry, as a list of none or one. */
  function AsList(f: Option<string>): (xs: seq<string>)
    ensures f.Some? ==> xs == [f.value]
    ensures f.None? ==> xs == []
  {
    if f.Some? then [f.value] else []
  }

  /** The loop of `check_against_portfolio` over per-inquiry outcomes taken
      in order: each adds its finding, if any, and its calls. */
  function Tally(outs: seq<Traced<Option<string>>>): (r: Traced<seq<string>>)
    ensures |r.value| <= |outs|
  {
    if outs == [] then Traced([], [])
    else
      var rest := Tally(outs[1..]);
      Traced(AsList(outs[0].value) + rest.value, outs[0].events + rest.events)
  }

  /** Tallying outcomes followed by more is tallying each, one after the
      other. */
  lemma {:induction false} TallyAppend(xs: seq<Traced<Option<string>>>, ys: seq<Traced<Option<string>>>)
    ensures Tally(xs + ys).value == Tally(xs).value + Tally(ys).value
    ensures Tally(xs + ys).events == Tally(xs).events + Tally(ys).events
    decreases |xs|
  {
    if xs == [] {
      assert xs + ys == ys;
    } else {
      assert (xs + ys)[0] == xs[0];
      assert (xs + ys)[1..] == xs[1..] + ys;
      TallyAppend(xs[1..], ys);
    }
  }

  /** The check of one inquiry against a fixed index. */
  function Checker(env: Env, store: Option<Index>): Inquiry -> Traced<Option<string>> {
    inq => CheckInquiry(env, store, inq)
  }

  /** The outcome of each inquiry, in order. */
  function Outcomes(env: Env, store: Option<Index>, inqs: seq<Inquiry>): (outs: seq<Traced<Option<string>>>)
    ensures |outs| == |inqs|
  {
    Map(Checker(env, store), inqs)
  }

  /** The first inquiry's outcome comes first. */
  lemma {:induction false} OutcomesCons(env: Env, store: Option<Index>, inqs: seq<Inquiry>)
    requires inqs != []
    ensures Outcomes(env, store, inqs) == [CheckInquiry(env, store, inqs[0])] + Outcomes(env, store, inqs[1..])
  {
    MapCons(Checker(env, store), inqs);
  }

  /** `check_against_portfolio` over an index that may be missing, missing
      meaning no results: every inquiry checked, in order. */
  function CheckAgainstPortfolio(env: Env, store: Option<Index>, inqs: seq<Inquiry>): (r: Traced<seq<string>>)
    ensures |r.value| <= |inqs|
  {
    Tally(Outcomes(env, store, inqs))
  }

  /** The inquiries the portfolio does not answer, in order. */
  function Unanswered(env: Env, store: Option<Index>, inqs: seq<Inquiry>): (u: seq<Inquiry>)
    ensures forall x :: x in u <==> x in inqs && !Answered(env, store, x)
    decreases |inqs|
  {
    if inqs == [] then []
    else (if Answered(env, store, inqs[0]) then [] else [inqs[0]]) + Unanswered(env, store, inqs[1..])
  }

  /** The finding an inquiry gets when the portfolio does not answer it. */
  function GapOf(inq: Inquiry): string {
    Gap(ProductType(inq))
  }

  /** The finding of each inquiry, in order. */
  function Gaps(inqs: seq<Inquiry>): (fs: seq<string>)
    ensures |fs| == |inqs|
  {
    Map(GapOf, inqs)
  }

  /** The findings are exactly the gaps of the unanswered inquiries, in
      inquiry order: one finding per unanswered inquiry and none for the
      others. */
  lemma {:induction false} CheckFindsGaps(env: Env, store: Option<Index>, inqs: seq<Inquiry>)
    ensures CheckAgainstPortfolio(env, store, inqs).value == Gaps(Unanswered(env, store, inqs))
    decreases |inqs|
  {
    if inqs != [] {
      var rest := inqs[1..];
      CheckFindsGaps(env, store, rest);
      var first := CheckInquiry(env, store, inqs[0]);
      var head := if Answered(env, store, inqs[0]) then [] else [inqs[0]];
      assert CheckAgainstPortfolio(env, store, inqs).value == AsList(first.value) + CheckAgainstPortfolio(env, store, rest).value by {
        OutcomesCons(env, store, inqs);
        var outs := Outcomes(env, store, inqs);
        assert outs[0] == first && outs[1..] == Outcomes(env, store, rest);
      }
      assert AsList(first.value) == Gaps(head);
      assert Unanswered(env, store, inqs) == head + Unanswered(env, store, rest);
      GapsAppend(head, Unanswered(env, store, rest));
    }
  }

  /** The gaps of two lists of inquiries, one after the other. */
  lemma {:induction false} GapsAppend(a: seq<Inquiry>, b: seq<Inquiry>)
    ensures Gaps(a + b) == Gaps(a) + Gaps(b)
  {
    MapAppend(GapOf, a, b);
  }

  /** Inquiries are checked one after another: the findings and calls of a
      list of inquiries followed by more are those of the first list, then
      those of the rest. */
  lemma {:induction false} CheckAppend(env: Env, store: Option<Index>, a: seq<Inquiry>, b: seq<Inquiry>)
    ensures CheckAgainstPortfolio(env, store, a + b).value
         == CheckAgainstPortfolio(env, store, a).value + CheckAgainstPortfolio(env, store, b).value
    ensures CheckAgainstPortfolio(env, store, a + b).events
         == CheckAgainstPortfolio(env, store, a).events + CheckAgainstPortfolio(env, store, b).events
  {
    MapAppend(Checker(env, store), a, b);
    TallyAppend(Outcomes(env, store, a), Outcomes(env, store, b));
  }

  /** A single inquiry contributes its finding exactly when the portfolio
      does not answer it. */
  lemma {:induction false} CheckOne(env: Env, store: Option<Index>, inq: Inquiry)
    ensures CheckAgainstPortfolio(env, store, [inq]).value ==
      (if Answered(env, store, inq) then [] else [Gap(ProductType(inq))])
  {
    OutcomesCons(env, store, [inq]);
    assert [inq][1..] == [];
    assert CheckAgainstPortfolio(env, store, [inq]).value == AsList(CheckInquiry(env, store, inq).value) + [];
  }

  /** With no index, every inquiry yields its finding, in order, and no
      call is made. */
  lemma {:induction false} CheckWithoutIndex(env: Env, inqs: seq<Inquiry>)
    ensures |CheckAgainstPortfolio(env, None, inqs).value| == |inqs|
    ensures forall i :: 0 <= i < |inqs| ==>
      CheckAgainstPortfolio(env, None, inqs).value[i] == Gap(ProductType(inqs[i]))
    ensures CheckAgainstPortfolio(env, None, inqs).events == []
    decreases |inqs|
  {
    if inqs != [] {
      CheckWithoutIndex(env, inqs[1..]);
      OutcomesCons(env, None, inqs);
      var first := CheckInquiry(env, None, inqs[0]);
      assert first.value == Some(Gap(ProductType(inqs[0]))) && first.events == [];
    }
  }

  /** The error `check_against_portfolio` raises when its index is `None`. */
  const NoIndexError: string := "'NoneType' object has no attribute 'similarity_search'"

  /** One inquiry as the code is written: the search is called on the index
      object itself, so a missing index raises instead of finding nothing. */
  function CheckInquiryAsWritten(env: Env, store: Option<Index>, inq: Inquiry): (r: Result<Traced<Option<string>>>)
    ensures r.Error? <==> store.None?
    ensures store.Some? ==> r == Ok(CheckInquiry(env, store, inq))
  {
    if store.None? then Error(NoIndexError) else Ok(CheckInquiry(env, store, inq))
  }

  /** `check_against_portfolio` as written: the first inquiry checked
      against a missing index raises, ending the whole check. */
  function CheckAgainstPortfolioAsWritten(env: Env, store: Option<Index>, inqs: seq<Inquiry>):
    (r: Result<Traced<seq<string>>>)
    ensures r.Error? ==> store.None? && inqs != [] && r.message == NoIndexError
    ensures r.Ok? ==> |r.value.value| <= |inqs|
    decreases |inqs|
  {
    if inqs == [] then Ok(Traced([], []))
    else
      var first := CheckInquiryAsWritten(env, store, inqs[0]);
      if first.Error? then Error(first.message)
      else
        var rest := CheckAgainstPortfolioAsWritten(env, store, inqs[1..]);
        if rest.Error? then rest
        else Ok(Traced(AsList(first.value.value) + rest.value.value, first.value.events + rest.value.events))
  }

  /** As written, the check agrees with the corrected one whenever there is
      an index, and raises on every non-empty list of inquiries when there
      is none. */
  lemma {:induction false} AsWrittenAgrees(env: Env, store: Option<Index>, inqs: seq<Inquiry>)
    ensures store.Some? ==> CheckAgainstPortfolioAsWritten(env, store, inqs) == Ok(CheckAgainstPortfolio(env, store, inqs))
    ensures store.None? ==> (CheckAgainstPortfolioAsWritten(env, store, inqs).Error? <==> inqs != [])
    decreases |inqs|
  {
    if inqs != [] {
      AsWrittenAgrees(env, store, inqs[1..]);
      OutcomesCons(env, store, inqs);
    }
  }

  /** `load_data`: the product index is built over the portfolio text,
      whether or not that text is empty. */
  function ProductIndex(env: Env, productText: string): (store: Option<Index>)
    ensures store.None? <==> env.split(productText) == []
  {
    CreateOrLoad(env, ProductPortfolio, productText)
  }

  /** `run`: load the portfolio's index, extract the inquiries, and check
      each against the portfolio, a missing index finding nothing (the
      corrected reading; `RunAsWritten` is the code as written). The
      findings are the gaps of exactly the inquiries the portfolio does not
      answer, in inquiry order. */
  function Run(env: Env, parse: string -> Option<Inquiries>, transcript: string, productText: string):
    (r: Traced<seq<string>>)
    ensures r.value == Gaps(Unanswered(env, ProductIndex(env, productText),
                                       InquiryList(ExtractProductInquiries(env, parse, transcript).value)))
    ensures |r.value| <= |InquiryList(ExtractProductInquiries(env, parse, transcript).value)|
    ensures |r.events| > 0 && r.events[0] == Generate(ProductInquiries(transcript))
  {
    var store := ProductIndex(env, productText);
    var doc := ExtractProductInquiries(env, parse, transcript);
    var found := CheckAgainstPortfolio(env, store, InquiryList(doc.value));
    CheckFindsGaps(env, store, InquiryList(doc.value));
    Traced(found.value, doc.events + found.events)
  }

  /** `run` as written: a portfolio the splitter yields no documents for
      leaves no index, and the first inquiry then raises. */
  function RunAsWritten(env: Env, parse: string -> Option<Inquiries>, transcript: string, productText: string):
    (r: Result<Traced<seq<string>>>)
    ensures r.Error? ==> env.split(productText) == [] && r.message == NoIndexError
    ensures env.split(productText) != [] ==> r == Ok(Run(env, parse, transcript, productText))
  {
    var store := ProductIndex(env, productText);
    var doc := ExtractProductInquiries(env, parse, transcript);
    var found := CheckAgainstPortfolioAsWritten(env, store, InquiryList(doc.value));
    AsWrittenAgrees(env, store, InquiryList(doc.value));
    if found.Error? then Error(found.message) else Ok(Traced(found.value.value, doc.events + found.value.events))
  }

  /** An answer that does not parse, or that lacks the `product_inquiries`
      key, yields no findings and no call beyond the extraction. */
  lemma {:induction false} NoInquiriesNoFindings(env: Env, parse: string -> Option<Inquiries>, transcript: string,
                                                productText: string)
    requires var parsed := parse(env.gen(ProductInquiries(transcript)));
      parsed.None? || parsed.value.productInquiries.None?
    ensures Run(env, parse, transcript, productText).value == []
    ensures Run(env, parse, transcript, productText).events == [Generate(ProductInquiries(transcript))]
  {
    var doc := ExtractProductInquiries(env, parse, transcript);
    assert InquiryList(doc.value) == [];
  }

  /** The discrepancy: with a portfolio the splitter yields no documents for
      and at least one inquiry, the code as written raises, while the
      corrected check reports every inquiry as a gap. */
  lemma {:induction false} EmptyPortfolioRaises(env: Env, parse: string -> Option<Inquiries>, transcript: string,
                                               productText: string)
    requires env.split(productText) == []
    requires InquiryList(ExtractProductInquiries(env, parse, transcript).value) != []
    ensures RunAsWritten(env, parse, transcript, productText).Error?
    ensures var inqs := InquiryList(ExtractProductInquiries(env, parse, transcript).value);
      && |Run(env, parse, transcript, productText).value| == |inqs|
      && forall i :: 0 <= i < |inqs| ==> Run(env, parse, transcript, productText).value[i] == Gap(ProductType(inqs[i]))
  {
    var inqs := InquiryList(ExtractProductInquiries(env, parse, transcript).value);
    AsWrittenAgrees(env, None, inqs);
    CheckWithoutIndex(env, inqs);
  }

  /** A concrete instance: an empty portfolio text the splitter yields no
      documents for, and an answer naming one mortgage inquiry. */
  lemma EmptyPortfolioExample()
    ensures var env := Env(p => "", (i, q, k) => [], t => []);
      var parse := (s: string) => Some(Inquiries(Some([Inquiry(Some("Mortgage"), None)])));
      && RunAsWritten(env, parse, "", "").Error?
      && Run(env, parse, "", "").value == [Gap("Mortgage")]
  {
    var env := Env(p => "", (i, q, k) => [], t => []);
    var parse := (s: string) => Some(Inquiries(Some([Inquiry(Some("Mortgage"), None)])));
    EmptyPortfolioRaises(env, parse, "", "");
  }
}

=== FILE: recommendation.dfy ===
/** The recommendation agent: unmet needs, product recommendations and next
    steps, each one generation call read as a list of lines. */
module Recommendation {
  import opened Optional
  import opened Text
  import opened Lines
  import opened Dicts
  import opened Services
  import Dialogue
  import Retrieval

  /** What `run` returns: exactly these three lists. */
  datatype Recommendations = Recommendations(
    unmetNeeds: seq<string>,
    productRecommendations: seq<string>,
    nextSteps: seq<string>)

  /** `identify_unmet_needs`: one call on the client data (a mapping is
      flattened to `"k: v"` lines), the topics one per line and the emotions. */
  function IdentifyUnmetNeeds(env: Env, client: DictOrText, topics: seq<string>, emotions: string): (r: Traced<seq<string>>)
    ensures r.events == [Generate(UnmetNeeds(PromptText(client), Join("\n", topics), emotions))]
    ensures r.value == ParseLines(env.gen(UnmetNeeds(PromptText(client), Join("\n", topics), emotions)))
    ensures CleanLines(r.value)
  {
    var out := Ask(env, UnmetNeeds(PromptText(client), Join("\n", topics), emotions));
    Traced(ParseLines(out.value), out.events)
  }

  /** The product query: the needs joined by single spaces. */
  function ProductQuery(needs: seq<string>): string {
    Join(" ", needs)
  }

  /** The product information a prompt receives: the retrieval summary. */
  function ProductInfo(env: Env, state: Retrieval.Retriever, src: Retrieval.Sources, needs: seq<string>): Traced<Retrieval.Answered> {
    Retrieval.Run(env, state, src, "product", ProductQuery(needs))
  }

  /** `recommend_products`: a product retrieval for the needs, then one call
      on the client data, the needs one per line and the retrieval's summary
      alone. */
  function RecommendProducts(env: Env, state: Retrieval.Retriever, src: Retrieval.Sources,
                             client: DictOrText, needs: seq<string>): (r: Traced<(Retrieval.Retriever, seq<string>)>)
    ensures var info := ProductInfo(env, state, src, needs);
      && r.events == info.events + [Generate(ProductRecommendations(PromptText(client), Join("\n", needs), info.value.result.summary))]
      && r.value.0 == info.value.state
      && r.value.1 == ParseLines(env.gen(ProductRecommendations(PromptText(client), Join("\n", needs), info.value.result.summary)))
    ensures CleanLines(r.value.1)
    ensures forall p :: Generate(p) in r.events ==> p.RetrievalSummary? || p.ProductRecommendations?
  {
    var info := ProductInfo(env, state, src, needs);
    var out := Ask(env, ProductRecommendations(PromptText(client), Join("\n", needs), info.value.result.summary));
    Traced((info.value.state, ParseLines(out.value)), info.events + out.events)
  }

  /** The prompt for next steps: the three summary sections (empty when
      missing) and the recommendations one per line. */
  function NextStepsPrompt(summary: Dict, recommendations: seq<string>): (p: Prompt)
    ensures p.NextSteps?
    ensures Get(summary, "client_goals").None? ==> p.goals == ""
    ensures Get(summary, "advisor_recommendations").None? ==> p.advice == ""
    ensures Get(summary, "action_items").None? ==> p.actions == ""
    ensures Get(summary, "client_goals").Some? ==> p.goals == Get(summary, "client_goals").value
    ensures Get(summary, "advisor_recommendations").Some? ==> p.advice == Get(summary, "advisor_recommendations").value
    ensures Get(summary, "action_items").Some? ==> p.actions == Get(summary, "action_items").value
    ensures p.recommendations == Join("\n", recommendations)
  {
    NextSteps(
      GetOr(summary, "client_goals", ""),
      GetOr(summary, "advisor_recommendations", ""),
      GetOr(summary, "action_items", ""),
      Join("\n", recommendations))
  }

  /** `suggest_next_steps`: one call, read as a list of lines. */
  function SuggestNextSteps(env: Env, summary: Dict, recommendations: seq<string>): (r: Traced<seq<string>>)
    ensures r.events == [Generate(NextStepsPrompt(summary, recommendations))]
    ensures r.value == ParseLines(env.gen(NextStepsPrompt(summary, recommendations)))
    ensures CleanLines(r.value)
  {
    var out := Ask(env, NextStepsPrompt(summary, recommendations));
    Traced(ParseLines(out.value), out.events)
  }

  /** The client data the prompts receive: the summary of a client
      retrieval with the fixed query. */
  function ClientInfo(env: Env, state: Retrieval.Retriever, src: Retrieval.Sources): Traced<Retrieval.Answered> {
    Retrieval.Run(env, state, src, "client", Retrieval.ClientProfileQuery)
  }

  /** What `run` computes before the next steps: the retrieval agent's
      state, the unmet needs and the product recommendations. */
  datatype Gathered = Gathered(state: Retrieval.Retriever, needs: seq<string>, products: seq<string>)

  /** The first stage of `run`: a full dialogue analysis, then a client
      retrieval. */
  function Consult(env: Env, state: Retrieval.Retriever, src: Retrieval.Sources, transcript: string):
    (r: Traced<(Dialogue.Analysis, Retrieval.Answered)>)
    ensures forall p :: Generate(p) in r.events ==> !p.NextSteps?
  {
    var analysis := Dialogue.Run(env, transcript, "full");
    var client := ClientInfo(env, state, src);
    NoNextStepsAmong(analysis.events, client.events, []);
    Traced((analysis.value, client.value), analysis.events + client.events + [])
  }

  /** The second stage of `run`: unmet needs from the topics (none when
      absent) and emotions (empty when absent), with the client
      retrieval's summary alone standing for the client data, then product
      recommendations for those needs. */
  function Advise(env: Env, src: Retrieval.Sources, analysis: Dialogue.Analysis, client: Retrieval.Answered):
    (r: Traced<Gathered>)
    ensures CleanLines(r.value.needs) && CleanLines(r.value.products)
    ensures r.value.needs == ParseLines(env.gen(NeedsPrompt(analysis, client)))
    ensures r.value.products == ParseLines(env.gen(ProductsPrompt(env, src, client, r.value.needs)))
    ensures forall p :: Generate(p) in r.events ==> !p.NextSteps?
  {
    var clientText := AsText(client.result.summary);
    var needs := IdentifyUnmetNeeds(env, clientText, analysis.topics.GetOr([]), analysis.emotions.GetOr(""));
    var products := RecommendProducts(env, client.state, src, clientText, needs.value);
    NoNextStepsAmong(needs.events, products.events, []);
    Traced(Gathered(products.value.0, needs.value, products.value.1), needs.events + products.events + [])
  }

  /** The unmet-needs prompt of `run`: the client retrieval's summary, the
      topics one per line (none when absent) and the emotions (empty when
      absent). */
  function NeedsPrompt(analysis: Dialogue.Analysis, client: Retrieval.Answered): Prompt {
    UnmetNeeds(client.result.summary, Join("\n", analysis.topics.GetOr([])), analysis.emotions.GetOr(""))
  }

  /** The product prompt of `run`: the client retrieval's summary, the needs
      one per line, and the summary of a product retrieval for the needs. */
  function ProductsPrompt(env: Env, src: Retrieval.Sources, client: Retrieval.Answered, needs: seq<string>): Prompt {
    ProductRecommendations(client.result.summary, Join("\n", needs), ProductInfo(env, client.state, src, needs).value.result.summary)
  }

  /** The part of `run` that does not depend on the summary: a full dialogue
      analysis and a client retrieval, then needs and products. No
      next-steps prompt is sent. */
  function Gather(env: Env, state: Retrieval.Retriever, src: Retrieval.Sources, transcript: string): (r: Traced<Gathered>)
    ensures CleanLines(r.value.needs) && CleanLines(r.value.products)
    ensures var analysis := Dialogue.Run(env, transcript, "full").value;
      var client := ClientInfo(env, state, src).value;
      && r.value.needs == ParseLines(env.gen(NeedsPrompt(analysis, client)))
      && r.value.products == ParseLines(env.gen(ProductsPrompt(env, src, client, r.value.needs)))
    ensures forall p :: Generate(p) in r.events ==> !p.NextSteps?
  {
    var c := Consult(env, state, src, transcript);
    var a := Advise(env, src, c.value.0, c.value.1);
    NoNextStepsAmong(c.events, a.events, []);
    Traced(a.value, c.events + a.events + [])
  }

  /** `run`: the needs and products, then next steps only when a non-empty
      summary is given; the result has exactly the three lists. */
  function Run(env: Env, state: Retrieval.Retriever, src: Retrieval.Sources, transcript: string,
               summary: Option<Dict>): (r: Traced<(Retrieval.Retriever, Recommendations)>)
    ensures CleanLines(r.value.1.unmetNeeds)
    ensures CleanLines(r.value.1.productRecommendations)
    ensures var analysis := Dialogue.Run(env, transcript, "full").value;
      var client := ClientInfo(env, state, src).value;
      && r.value.1.unmetNeeds == ParseLines(env.gen(NeedsPrompt(analysis, client)))
      && r.value.1.productRecommendations == ParseLines(env.gen(ProductsPrompt(env, src, client, r.value.1.unmetNeeds)))
    ensures CleanLines(r.value.1.nextSteps)
    ensures summary.None? || summary.value == [] ==>
      r.value.1.nextSteps == [] && forall p :: Generate(p) in r.events ==> !p.NextSteps?
  {
    var g := Gather(env, state, src, transcript);
    var steps := if summary.Some? && summary.value != [] then SuggestNextSteps(env, summary.value, g.value.products)
                 else Traced([], []);
    Traced((g.value.state, Recommendations(g.value.needs, g.value.products, steps.value)), g.events + steps.events)
  }

  /** With a non-empty summary, `run` ends with exactly one next-steps call,
      made on that summary and the product recommendations, and the next
      steps are that call's answer read as lines. */
  lemma {:induction false} RunWithSummary(env: Env, state: Retrieval.Retriever, src: Retrieval.Sources,
                                          transcript: string, summary: Dict)
    requires summary != []
    ensures var g := Gather(env, state, src, transcript);
      var r := Run(env, state, src, transcript, Some(summary));
      && r.events == g.events + [Generate(NextStepsPrompt(summary, g.value.products))]
      && r.value.1.productRecommendations == g.value.products
      && r.value.1.nextSteps == ParseLines(env.gen(NextStepsPrompt(summary, g.value.products)))
  {
    var g := Gather(env, state, src, transcript);
    var steps := SuggestNextSteps(env, summary, g.value.products);
    assert Run(env, state, src, transcript, Some(summary))
        == Traced((g.value.state, Recommendations(g.value.needs, g.value.products, steps.value)), g.events + steps.events);
  }

  /** Three runs of calls none of which asks for next steps make one such run. */
  lemma {:induction false} NoNextStepsAmong(a: seq<Event>, b: seq<Event>, c: seq<Event>)
    requires forall p :: Generate(p) in a ==> !p.NextSteps?
    requires forall p :: Generate(p) in b ==> !p.NextSteps?
    requires forall p :: Generate(p) in c ==> !p.NextSteps?
    ensures forall p :: Generate(p) in a + b + c ==> !p.NextSteps?
  {
  }
}

=== FILE: retrieval.dfy ===
/** The data retrieval agent: client state and product portfolio indexed
    for similarity search, queries answered by a summary of the top results
    or by a fixed message when nothing is found. */
module Retrieval {
  import opened Optional
  import opened Text
  import opened Dicts
  import opened Services

  /** What the data loader returns on every load: the client state as a
      mapping and the product portfolio as one text. */
  datatype Sources = Sources(clientState: Dict, productText: string)

  /** The agent's state: the data last loaded and the two indexes. */
  datatype Retriever = Retriever(
    clientData: Option<Dict>,
    productData: Option<string>,
    clientIndex: Option<Index>,
    productIndex: Option<Index>)

  /** A newly constructed agent: nothing loaded, nothing indexed. */
  const Fresh: Retriever := Retriever(None, None, None, None)

  /** The answer to a query: a summary and the raw result texts. */
  datatype Retrieved = Retrieved(summary: string, rawResults: seq<string>)

  /** The agent's state after a query, and the answer. */
  datatype Answered = Answered(state: Retriever, result: Retrieved)

  /** The fixed query the recommendation and financial advisor agents
      retrieve client data with. */
  const ClientProfileQuery: string := "client profile and financial situation"

  /** How many results a query asks the index for. */
  const ResultsPerQuery: nat := 3

  /** The summary when a query finds nothing in a collection. */
  function NoInfo(ns: Namespace): string {
    match ns
    case ClientState => "No relevant client information found."
    case ProductPortfolio => "No relevant product information found."
  }

  /** The text the client index is built over: one `"k: v"` line per entry. */
  function ClientText(clientState: Dict): string {
    Flatten(clientState)
  }

  /** `load_data`: load both sources, then build an index over each source
      that is not empty; an empty source leaves its index as it was. */
  function LoadData(env: Env, r: Retriever, src: Sources): (r': Traced<Retriever>)
    ensures r'.events == [Services.LoadData]
    ensures r'.value.clientData == Some(src.clientState)
    ensures r'.value.productData == Some(src.productText)
    ensures src.clientState == [] ==> r'.value.clientIndex == r.clientIndex
    ensures src.productText == "" ==> r'.value.productIndex == r.productIndex
  {
    Traced(
      Retriever(
        Some(src.clientState),
        Some(src.productText),
        if src.clientState != [] then CreateOrLoad(env, ClientState, ClientText(src.clientState)) else r.clientIndex,
        if src.productText != "" then CreateOrLoad(env, ProductPortfolio, src.productText) else r.productIndex),
      [Services.LoadData])
  }

  /** The client index is built over the flattened client mapping, and only
      from a non-empty mapping; likewise the product index over the product
      text. */
  lemma {:induction false} LoadDataIndexes(env: Env, src: Sources)
    ensures var r := LoadData(env, Fresh, src).value;
      && (r.clientIndex.Some? <==> src.clientState != [] && env.split(Flatten(src.clientState)) != [])
      && (r.clientIndex.Some? ==> r.clientIndex.value == Index(ClientState, env.split(Flatten(src.clientState))))
      && (r.productIndex.Some? <==> src.productText != "" && env.split(src.productText) != [])
      && (r.productIndex.Some? ==> r.productIndex.value == Index(ProductPortfolio, env.split(src.productText)))
  {
  }

  /** The index a collection's queries go to. */
  function IndexOf(r: Retriever, ns: Namespace): Option<Index> {
    match ns
    case ClientState => r.clientIndex
    case ProductPortfolio => r.productIndex
  }

  /** What a query finds: the top results of the index, or nothing when
      there is no index. */
  function Found(env: Env, r: Retriever, ns: Namespace, query: string): seq<string> {
    var index := IndexOf(r, ns);
    if index.Some? then env.search(index.value, query, ResultsPerQuery) else []
  }

  /** `retrieve_client_info` / `retrieve_product_info`: reload when the
      collection has no index, search when it has one, and summarise the
      results with one call, or answer with the fixed message and no call
      when there are none. */
  function Retrieve(env: Env, r: Retriever, src: Sources, ns: Namespace, query: string): (a: Traced<Answered>)
    ensures IndexOf(r, ns).None? <==> |a.events| > 0 && a.events[0] == Services.LoadData
    ensures a.value.result.rawResults == Found(env, a.value.state, ns, query)
    ensures a.value.result.rawResults == [] ==>
      a.value.result.summary == NoInfo(ns) && NoGeneration(a.events)
    ensures a.value.result.rawResults != [] ==>
      && Generations(a.events) == [RetrievalSummary(ns, query, Join("\n", a.value.result.rawResults))]
      && a.value.result.summary == env.gen(RetrievalSummary(ns, query, Join("\n", a.value.result.rawResults)))
    ensures forall p :: Generate(p) in a.events ==> p == RetrievalSummary(ns, query, Join("\n", a.value.result.rawResults))
  {
    var loaded := if IndexOf(r, ns).None? then LoadData(env, r, src) else Traced(r, []);
    var results := Found(env, loaded.value, ns, query);
    var index := IndexOf(loaded.value, ns);
    var searched := if index.Some? then [Search(index.value, query, ResultsPerQuery)] else [];
    if |results| > 0 then
      var s := Ask(env, RetrievalSummary(ns, query, Join("\n", results)));
      GenerationsAppend(loaded.events + searched, s.events);
      GenerationsAppend(loaded.events, searched);
      Traced(Answered(loaded.value, Retrieved(s.value, results)), loaded.events + searched + s.events)
    else
      Traced(Answered(loaded.value, Retrieved(NoInfo(ns), [])), loaded.events + searched)
  }

  /** The query types `run` names when it rejects one. */
  const QueryTypes: string := "'client' or 'product'"

  /** Python truthiness of the loaded data: missing or empty is falsy. */
  predicate HasData(r: Retriever) {
    && r.clientData.Some? && r.clientData.value != []
    && r.productData.Some? && r.productData.value != ""
  }

  /** The state `run` answers from: reloaded when either source is missing
      or empty, as it was otherwise. */
  function Prepared(env: Env, r: Retriever, src: Sources): Traced<Retriever> {
    if !HasData(r) then LoadData(env, r, src) else Traced(r, [])
  }

  /** `run`: reload whenever either source is missing or empty, then answer
      by the lower-cased query type: "client" from the client collection,
      "product" from the product collection. */
  function Run(env: Env, r: Retriever, src: Sources, queryType: string, query: string): (a: Traced<Answered>)
    ensures !HasData(r) ==> |a.events| > 0 && a.events[0] == Services.LoadData
    ensures Lower(queryType) != "client" && Lower(queryType) != "product" ==>
      && a.value.result == Retrieved(InvalidTypeMessage("query", queryType, QueryTypes), [])
      && NoGeneration(a.events) && NoSearch(a.events)
    ensures var pre := Prepared(env, r, src);
      var q := Retrieve(env, pre.value, src, ClientState, query);
      Lower(queryType) == "client" ==> a.value == q.value && a.events == pre.events + q.events
    ensures var pre := Prepared(env, r, src);
      var q := Retrieve(env, pre.value, src, ProductPortfolio, query);
      Lower(queryType) == "product" ==> a.value == q.value && a.events == pre.events + q.events
    ensures forall p :: Generate(p) in a.events ==> p.RetrievalSummary?
  {
    var loaded := Prepared(env, r, src);
    var kind := Lower(queryType);
    if kind == "client" then
      var q := Retrieve(env, loaded.value, src, ClientState, query);
      Traced(q.value, loaded.events + q.events)
    else if kind == "product" then
      var q := Retrieve(env, loaded.value, src, ProductPortfolio, query);
      Traced(q.value, loaded.events + q.events)
    else
      Traced(Answered(loaded.value, Retrieved(InvalidTypeMessage("query", queryType, QueryTypes), [])), loaded.events)
  }

  /** Dispatch looks only at the lower-cased type: any spelling of "client"
      or "product" behaves like the lower-case one. */
  lemma {:induction false} RunCaseInsensitive(env: Env, r: Retriever, src: Sources, queryType: string, query: string)
    requires Lower(queryType) == "client" || Lower(queryType) == "product"
    ensures Run(env, r, src, queryType, query) == Run(env, r, src, Lower(queryType), query)
  {
    LowerIdempotent(queryType);
  }

  /** The collection a query type names: "client" the client state,
      "product" the product portfolio. */
  predicate Names(queryType: string, ns: Namespace) {
    match ns
    case ClientState => Lower(queryType) == "client"
    case ProductPortfolio => Lower(queryType) == "product"
  }

  /** With both sources loaded and the named collection indexed, `run`
      reloads nothing, first searches that collection's index for the top
      results, and answers with what that search found. */
  lemma {:induction false} RunSearchesItsCollection(env: Env, r: Retriever, src: Sources, queryType: string,
                                                    query: string, ns: Namespace)
    requires HasData(r) && Names(queryType, ns) && IndexOf(r, ns).Some?
    ensures var a := Run(env, r, src, queryType, query);
      && |a.events| > 0
      && a.events[0] == Search(IndexOf(r, ns).value, query, ResultsPerQuery)
      && a.value.result.rawResults == env.search(IndexOf(r, ns).value, query, ResultsPerQuery)
  {
    var q := Retrieve(env, r, src, ns, query);
    assert Prepared(env, r, src) == Traced(r, []);
    assert Run(env, r, src, queryType, query) == Traced(q.value, [] + q.events);
    assert q.events[0] == Search(IndexOf(r, ns).value, query, ResultsPerQuery);
  }

  /** With an empty client mapping on a fresh agent, a client query finds
      nothing: it reloads twice (once for the missing data, once for the
      missing index) and does nothing else, answering with the fixed message
      and no results; in particular it neither searches nor generates. */
  lemma {:induction false} EmptyClientState(env: Env, productText: string, query: string)
    ensures var a := Run(env, Fresh, Sources([], productText), "client", query);
      && a.value.result == Retrieved(NoInfo(ClientState), [])
      && a.events == [Services.LoadData, Services.LoadData]
  {
    var src := Sources([], productText);
    LowerOfLowercase("client");
    var loaded := LoadData(env, Fresh, src);
    RetrieveEmptyClient(env, loaded.value, src, query);
    var q := Retrieve(env, loaded.value, src, ClientState, query);
    assert Run(env, Fresh, src, "client", query) == Traced(q.value, loaded.events + q.events);
  }

  /** A client query with no client index and an empty client mapping
      reloads once, still has no index, and answers with the fixed message. */
  lemma {:induction false} RetrieveEmptyClient(env: Env, r: Retriever, src: Sources, query: string)
    requires r.clientIndex.None? && src.clientState == []
    ensures Retrieve(env, r, src, ClientState, query).value.result == Retrieved(NoInfo(ClientState), [])
    ensures Retrieve(env, r, src, ClientState, query).events == [Services.LoadData]
  {
    var again := LoadData(env, r, src);
    assert Retrieve(env, r, src, ClientState, query)
        == Traced(Answered(again.value, Retrieved(NoInfo(ClientState), [])), again.events + []);
  }
}

=== FILE: sections.dfy ===
/** Marker-based extraction from generated text: Python's
    `s.split(m)[1]` (the text after a marker) and `s.split(t)[0]` (the text
    before a terminator), and what they select in terms of positions. */
module Sections {
  import opened Optional
  import opened Text

  /** Index of the first occurrence of `marker` in `s`. */
  function First(s: string, marker: string): nat
    requires Contains(s, marker)
  {
    Find(s, marker, 0).value
  }

  /** Python `s.split(marker)[0]`. */
  function Before(s: string, marker: string): string
    requires |marker| > 0
  {
    Split(s, marker)[0]
  }

  /** Python `s.split(marker)[1]`, defined when the marker occurs. */
  function After(s: string, marker: string): string
    requires |marker| > 0 && Contains(s, marker)
  {
    Split(s, marker)[1]
  }

  /** `r` is the text of `s` that starts at `start` and runs up to the first
      occurrence of `stop` at or after `start`, or to the end of `s` when
      there is none. */
  predicate RunsUntil(s: string, start: nat, stop: string, r: string) {
    && start + |r| <= |s|
    && s[start..start + |r|] == r
    && (forall p :: start <= p < start + |r| ==> !OccursAt(s, stop, p))
    && (start + |r| == |s| || OccursAt(s, stop, start + |r|))
  }

  /** `RunsUntil` pins down its text: at most one `r` satisfies it. */
  lemma {:induction false} RunsUntilUnique(s: string, start: nat, stop: string, r1: string, r2: string)
    requires RunsUntil(s, start, stop, r1) && RunsUntil(s, start, stop, r2)
    ensures r1 == r2
  {
  }

  /** The text before a marker runs from the start of `s` to the marker's
      first occurrence, or is all of `s`. */
  lemma {:induction false} BeforeRunsUntil(s: string, marker: string)
    requires |marker| > 0
    ensures RunsUntil(s, 0, marker, Before(s, marker))
  {
    if Contains(s, marker) {
      assert Split(s, marker)[0] == s[..First(s, marker)];
    }
  }

  /** A marker that does not occur leaves the text whole. */
  lemma {:induction false} BeforeAbsent(s: string, marker: string)
    requires |marker| > 0 && !Contains(s, marker)
    ensures Before(s, marker) == s
  {
  }

  /** The text after a marker begins right after its first occurrence and
      runs to its second occurrence, or to the end. */
  lemma {:induction false} AfterRunsUntil(s: string, marker: string)
    requires |marker| > 0 && Contains(s, marker)
    ensures RunsUntil(s, First(s, marker) + |marker|, marker, After(s, marker))
  {
    var start := First(s, marker) + |marker|;
    var after := After(s, marker);
    assert RunsUntil(s[start..], 0, marker, after) by {
      AfterIsBeforeOfRest(s, marker);
      BeforeRunsUntil(s[start..], marker);
    }
    ShiftRunsUntil(s, start, marker, after);
  }

  /** The text after a marker is the text before its next occurrence in
      what follows the first one. */
  lemma {:induction false} AfterIsBeforeOfRest(s: string, marker: string)
    requires |marker| > 0 && Contains(s, marker)
    ensures After(s, marker) == Before(s[First(s, marker) + |marker|..], marker)
  {
  }

  /** A run in a suffix of `s` is the same run in `s`, shifted. */
  lemma {:induction false} ShiftRunsUntil(s: string, start: nat, stop: string, r: string)
    requires start <= |s| && RunsUntil(s[start..], 0, stop, r)
    ensures RunsUntil(s, start, stop, r)
  {
    var rest := s[start..];
    forall p | start <= p < start + |r|
      ensures !OccursAt(s, stop, p)
    {
      OccursInSuffix(s, start, stop, p - start);
    }
    if start + |r| < |s| {
      OccursInSuffix(s, start, stop, |r|);
    }
    assert s[start..start + |r|] == rest[..|r|];
  }

  /** The section a header introduces: the text after the header's first
      occurrence, cut at a repeat of the header, then at the first `stop`
      inside what remains (Python `s.split(header)[1].split(stop)[0]`). */
  function SectionText(s: string, header: string, stop: string): string
    requires |header| > 0 && |stop| > 0 && Contains(s, header)
  {
    Before(After(s, header), stop)
  }

  /** Positions of a section: its body follows the first header up to a
      repeated header, and the section is that body up to its first `stop`. */
  lemma {:induction false} SectionSpan(s: string, header: string, stop: string)
    requires |header| > 0 && |stop| > 0 && Contains(s, header)
    ensures RunsUntil(s, First(s, header) + |header|, header, After(s, header))
    ensures RunsUntil(After(s, header), 0, stop, SectionText(s, header, stop))
  {
    AfterRunsUntil(s, header);
    BeforeRunsUntil(After(s, header), stop);
  }

  /** Only the text after the first header matters: whatever precedes it,
      including an occurrence of `stop`, never shortens the section. */
  lemma {:induction false} SectionIgnoresEarlierText(x: string, header: string, y: string, stop: string)
    requires |header| > 0 && |stop| > 0
    requires Find(x + header + y, header, 0) == Some(|x|)
    ensures SectionText(x + header + y, header, stop) == Before(Before(y, header), stop)
  {
    var s := x + header + y;
    assert s[..|x|] == x;
    assert s[|x| + |header|..] == y;
    assert Split(s, header) == [x] + Split(y, header);
  }

  /** When `stop` never occurs, the section is the whole body after the header. */
  lemma {:induction false} SectionWithoutStop(s: string, header: string, stop: string)
    requires |header| > 0 && |stop| > 0 && Contains(s, header) && !Contains(s, stop)
    ensures SectionText(s, header, stop) == After(s, header)
  {
    AfterRunsUntil(s, header);
    var start := First(s, header) + |header|;
    SliceLacks(s, start, start + |After(s, header)|, stop);
  }
}

=== FILE: seqs.dfy ===
/** Sequences laid end to end and mapped element by element, with facts
    stated over abstract sequences so that callers need not unfold what
    built them. */
module Seqs {
  /** Three singletons in a row make a three-element sequence. */
  lemma {:induction false} Singletons3<T>(a: seq<T>, b: seq<T>, c: seq<T>, x: T, y: T, z: T)
    requires a == [x] && b == [y] && c == [z]
    ensures a + b + c == [x, y, z]
  {
  }

  /** A three-element sequence followed by a singleton. */
  lemma {:induction false} Append3<T>(a: seq<T>, b: seq<T>, x: T, y: T, z: T, w: T)
    requires a == [x, y, z] && b == [w]
    ensures a + b == [x, y, z, w]
  {
  }

  /** The parts laid end to end. */
  function Concat<T>(parts: seq<seq<T>>): seq<T> {
    if |parts| == 0 then [] else parts[0] + Concat(parts[1..])
  }

  /** Laying out two lists of parts is laying out each, one after the other. */
  lemma {:induction false} ConcatAppend<T>(a: seq<seq<T>>, b: seq<seq<T>>)
    ensures Concat(a + b) == Concat(a) + Concat(b)
    decreases |a|
  {
    if |a| == 0 {
      assert a + b == b;
    } else {
      assert (a + b)[1..] == a[1..] + b;
      ConcatAppend(a[1..], b);
    }
  }

  /** Part `j` sits right after the parts before it. */
  lemma {:induction false} ConcatPart<T>(parts: seq<seq<T>>, j: nat)
    requires j < |parts|
    ensures |Concat(parts[..j])| + |parts[j]| <= |Concat(parts)|
    ensures Concat(parts)[|Concat(parts[..j])|..|Concat(parts[..j])| + |parts[j]|] == parts[j]
  {
    assert parts == parts[..j] + parts[j..];
    ConcatAppend(parts[..j], parts[j..]);
    assert parts[j..][1..] == parts[j + 1..];
  }

  /** A part ends no later than any later part starts. */
  lemma {:induction false} ConcatBefore<T>(parts: seq<seq<T>>, i: nat, j: nat)
    requires i < j <= |parts|
    ensures |Concat(parts[..i])| + |parts[i]| <= |Concat(parts[..j])|
  {
    assert parts[..j] == parts[..i] + parts[i..j];
    ConcatAppend(parts[..i], parts[i..j]);
    assert parts[i..j][0] == parts[i];
  }

  /** `f` applied to each element, in order. */
  function Map<A, B>(f: A -> B, xs: seq<A>): (ys: seq<B>)
    ensures |ys| == |xs|
    ensures forall i :: 0 <= i < |xs| ==> ys[i] == f(xs[i])
  {
    seq(|xs|, i requires 0 <= i < |xs| => f(xs[i]))
  }

  /** Mapping distributes over concatenation. */
  lemma {:induction false} MapAppend<A, B>(f: A -> B, a: seq<A>, b: seq<A>)
    ensures Map(f, a + b) == Map(f, a) + Map(f, b)
  {
    assert forall i :: 0 <= i < |a + b| ==> Map(f, a + b)[i] == (Map(f, a) + Map(f, b))[i];
  }

  /** Mapping a non-empty sequence maps its head, then its tail. */
  lemma {:induction false} MapCons<A, B>(f: A -> B, xs: seq<A>)
    requires xs != []
    ensures Map(f, xs) == [f(xs[0])] + Map(f, xs[1..])
  {
    assert forall i :: 0 <= i < |xs| ==> Map(f, xs)[i] == ([f(xs[0])] + Map(f, xs[1..]))[i];
  }
}

=== FILE: services.dfy ===
/** The external services every agent calls, kept uninterpreted: the
    language model, the similarity search over a vector index, and the text
    splitter that cuts text into chunks or index documents. A stage returns
    its value together with the calls it made, in order, so that call
    counts and stage order can be stated about it. */
module Services {
  import opened Optional
  import opened Text

  /** The two collections the vector store keeps. */
  datatype Namespace = ClientState | ProductPortfolio

  /** A vector index: the collection it belongs to and the documents the
      splitter produced from the indexed text. */
  datatype Index = Index(ns: Namespace, docs: seq<string>)

  /** What a prompt to the language model is about. Each constructor is one
      prompt template of the repository; its fields are the values the
      template interpolates. The wording of the templates is not modelled. */
  datatype Prompt =
    | ChunkSummary(chunk: string)
    | UnifySummaries(combined: string)
    | StructuredSummary(transcript: string, emotions: string, topics: string)
    | EmotionAnalysis(transcript: string)
    | TopicExtraction(transcript: string)
    | QuestionExtraction(transcript: string)
    | MeetingNotes(transcript: string)
    | UnmetNeeds(clientData: string, topics: string, emotions: string)
    | ProductRecommendations(clientData: string, needs: string, productInfo: string)
    | NextSteps(goals: string, advice: string, actions: string, recommendations: string)
    | RetrievalSummary(ns: Namespace, query: string, results: string)
    | ProductInquiries(transcript: string)
    | Relevance(query: string, result: string)
    | ClientFacts(transcript: string)
    | AdvisorRecommendations(clientData: string)
    | BiasFindings(transcript: string, biases: string)

  /** One call to an external service. `LoadData` is a reload of the client
      state and the product portfolio by the retrieval agent. */
  datatype Event =
    | Generate(prompt: Prompt)
    | Search(index: Index, query: string, k: nat)
    | LoadData

  /** The services: `gen` answers a prompt, `search` returns the contents of
      up to `k` documents of an index for a query, and `split` cuts text into
      chunks (the splitter configured with a chunk size of 1000 and an
      overlap of 200). */
  datatype Env = Env(
    gen: Prompt -> string,
    search: (Index, string, nat) -> seq<string>,
    split: string -> seq<string>)

  /** A stage's value and the service calls it made, in order. */
  datatype Traced<+T> = Traced(value: T, events: seq<Event>)

  /** One generation call and its answer. */
  function Ask(env: Env, p: Prompt): (r: Traced<string>)
    ensures r.events == [Generate(p)]
  {
    Traced(env.gen(p), [Generate(p)])
  }

  /** The prompts sent, in order. */
  function Generations(events: seq<Event>): (ps: seq<Prompt>)
    ensures |ps| <= |events|
    ensures forall p :: p in ps <==> Generate(p) in events
  {
    if |events| == 0 then []
    else (if events[0].Generate? then [events[0].prompt] else []) + Generations(events[1..])
  }

  /** The prompts of two runs of calls are those of the first, then those of
      the second. */
  lemma {:induction false} GenerationsAppend(a: seq<Event>, b: seq<Event>)
    ensures Generations(a + b) == Generations(a) + Generations(b)
    decreases |a|
  {
    if |a| > 0 {
      assert (a + b)[0] == a[0];
      assert (a + b)[1..] == a[1..] + b;
      GenerationsAppend(a[1..], b);
    } else {
      assert a + b == b;
    }
  }

  /** No call in `events` is a generation call. */
  predicate NoGeneration(events: seq<Event>) {
    forall i :: 0 <= i < |events| ==> !events[i].Generate?
  }

  /** No call in `events` is a similarity search. */
  predicate NoSearch(events: seq<Event>) {
    forall i :: 0 <= i < |events| ==> !events[i].Search?
  }

  /** What the vector store builds for a text: no index when the splitter
      yields no documents, otherwise an index over those documents. */
  function CreateOrLoad(env: Env, ns: Namespace, text: string): (r: Option<Index>)
    ensures r.None? <==> env.split(text) == []
    ensures r.Some? ==> r.value.ns == ns && r.value.docs == env.split(text)
  {
    var docs := env.split(text);
    if docs == [] then None else Some(Index(ns, docs))
  }

  /** The message an agent's `run` answers with for a type it does not know:
      the kind of type, the rejected name and the names it accepts, so that
      both the rejected name and the accepted ones can be read off it. */
  function InvalidTypeMessage(kind: string, given: string, accepted: string): (m: string)
    ensures Contains(m, given)
    ensures Contains(m, accepted)
  {
    var opening := "Invalid " + kind + " type: ";
    ContainsMiddle(opening, given, ". Use " + accepted + ".");
    ContainsMiddle(opening + given + ". Use ", accepted, ".");
    assert opening + given + (". Use " + accepted + ".") == opening + given + ". Use " + accepted + ".";
    opening + given + ". Use " + accepted + "."
  }
}

=== FILE: summarization.dfy ===
/** The summarization agent: a chunk-by-chunk summary unified by a final
    call, and a structured summary whose sections are cut out of the model's
    answer by their bold headers. */
module Summarization {
  import opened Optional
  import opened Text
  import opened Sections
  import opened Dicts
  import opened Services
  import opened Seqs
  import Dialogue

  /** The section headers of the structured answer, and the prefixes that
      end the section before them. */
  const GoalsHeader: string := "**Client's Goals/Questions:**"
  const AnalysisStop: string := "**Advisor's Analysis"
  const AnalysisHeader: string := "**Advisor's Analysis & Recommendations:**"
  const ActionsStop: string := "**Action Items"
  const ActionsHeader: string := "**Action Items / Next Steps:**"
  const ReactionsStop: string := "**Client's Reactions"
  const ReactionsHeader: string := "**Client's Reactions/Concerns:**"

  /** Every key a structured summary may hold, in insertion order. */
  const SummaryKeys: seq<string> :=
    ["client_goals", "advisor_recommendations", "action_items", "client_reactions", "full_summary"]

  /** A section cut at a terminator: present when its header occurs, and
      then the stripped text after the header's first occurrence, up to a
      repeat of the header and then up to the first `stop` inside it. */
  function StoppedSection(out: string, header: string, stop: string): (r: Option<string>)
    requires |header| > 0 && |stop| > 0
    ensures r.Some? <==> Contains(out, header)
    ensures r.Some? ==> IsStripped(r.value)
  {
    if Contains(out, header) then Some(Strip(SectionText(out, header, stop))) else None
  }

  /** The last section: present when its header occurs, and then the
      stripped text between the header's first and next occurrence. */
  function FinalSection(out: string, header: string): (r: Option<string>)
    requires |header| > 0
    ensures r.Some? <==> Contains(out, header)
    ensures r.Some? ==> IsStripped(r.value)
  {
    if Contains(out, header) then Some(Strip(After(out, header))) else None
  }

  /** The assignments that fill a structured summary, in key order. */
  function SummaryFields(out: string): (fs: seq<(string, Option<string>)>)
    ensures Names(fs) == SummaryKeys
  {
    [("client_goals", StoppedSection(out, GoalsHeader, AnalysisStop)),
     ("advisor_recommendations", StoppedSection(out, AnalysisHeader, ActionsStop)),
     ("action_items", StoppedSection(out, ActionsHeader, ReactionsStop)),
     ("client_reactions", FinalSection(out, ReactionsHeader)),
     ("full_summary", Some(out))]
  }

  /** The sections read from the structured answer `out`, in key order,
      followed by the raw answer under `full_summary`. */
  function ParseStructuredSummary(out: string): (d: Dict)
  {
    Collect(SummaryFields(out))
  }

  /** Sections are decided independently: a key is present exactly when its
      header occurs, with the text its header delimits; the raw answer is
      always kept unchanged under `full_summary`; no other key appears and
      none twice. */
  lemma {:induction false} StructuredSummaryLookup(out: string)
    ensures Get(ParseStructuredSummary(out), "client_goals") == StoppedSection(out, GoalsHeader, AnalysisStop)
    ensures Get(ParseStructuredSummary(out), "advisor_recommendations") == StoppedSection(out, AnalysisHeader, ActionsStop)
    ensures Get(ParseStructuredSummary(out), "action_items") == StoppedSection(out, ActionsHeader, ReactionsStop)
    ensures Get(ParseStructuredSummary(out), "client_reactions") == FinalSection(out, ReactionsHeader)
    ensures Get(ParseStructuredSummary(out), "full_summary") == Some(out)
    ensures forall k :: k in Keys(ParseStructuredSummary(out)) ==> k in SummaryKeys
    ensures UniqueKeys(ParseStructuredSummary(out))
  {
    var fs := SummaryFields(out);
    assert Distinct(SummaryKeys);
    CollectKeys(fs);
    CollectGet(fs, 0);
    CollectGet(fs, 1);
    CollectGet(fs, 2);
    CollectGet(fs, 3);
    CollectGet(fs, 4);
  }

  /** Where a terminated section comes from: the body after the header's
      first occurrence up to a repeat of the header, then that body up to its
      first terminator, stripped. */
  lemma {:induction false} StoppedSectionSpan(out: string, header: string, stop: string)
    requires |header| > 0 && |stop| > 0 && Contains(out, header)
    ensures exists body, section ::
      && RunsUntil(out, First(out, header) + |header|, header, body)
      && RunsUntil(body, 0, stop, section)
      && StoppedSection(out, header, stop) == Some(Strip(section))
  {
    SectionSpan(out, header, stop);
    var body := After(out, header);
    var section := SectionText(out, header, stop);
    assert StoppedSection(out, header, stop) == Some(Strip(section));
  }

  /** Where the last section comes from: the text after its header's first
      occurrence up to a repeat of the header or the end, stripped; no other
      text ends it. */
  lemma {:induction false} FinalSectionSpan(out: string, header: string)
    requires |header| > 0 && Contains(out, header)
    ensures exists body ::
      && RunsUntil(out, First(out, header) + |header|, header, body)
      && FinalSection(out, header) == Some(Strip(body))
  {
    AfterRunsUntil(out, header);
    var body := After(out, header);
    assert FinalSection(out, header) == Some(Strip(body));
  }

  /** A terminator is looked for only after the header: text before the
      header's first occurrence, whatever it holds, does not change the
      section. */
  lemma {:induction false} StoppedSectionIgnoresPreamble(x: string, header: string, y: string, stop: string)
    requires |header| > 0 && |stop| > 0
    requires Find(x + header + y, header, 0) == Some(|x|)
    ensures StoppedSection(x + header + y, header, stop) == Some(Strip(Before(Before(y, header), stop)))
  {
    SectionIgnoresEarlierText(x, header, y, stop);
  }

  /** `summarize_chunk` over every chunk, in order: one call per chunk. */
  function SummarizeEach(env: Env, chunks: seq<string>): (r: Traced<seq<string>>)
    ensures |r.value| == |chunks| && |r.events| == |chunks|
    ensures forall i :: 0 <= i < |chunks| ==>
      r.value[i] == env.gen(ChunkSummary(chunks[i])) && r.events[i] == Generate(ChunkSummary(chunks[i]))
  {
    if |chunks| == 0 then Traced([], [])
    else
      var head := Ask(env, ChunkSummary(chunks[0]));
      var tail := SummarizeEach(env, chunks[1..]);
      Traced([head.value] + tail.value, head.events + tail.events)
  }

  /** The chunk summaries joined into one text, as the final call receives them. */
  function CombinedSummaries(env: Env, transcript: string): string {
    Join("\n\n", SummarizeEach(env, env.split(transcript)).value)
  }

  /** `summarize_transcript_chunks`: one call per chunk, in chunk order, then
      exactly one final call on the summaries joined by blank lines, whose
      answer is the result. */
  function SummarizeTranscriptChunks(env: Env, transcript: string): (r: Traced<string>)
    ensures var chunks := env.split(transcript);
      && |r.events| == |chunks| + 1
      && (forall i :: 0 <= i < |chunks| ==> r.events[i] == Generate(ChunkSummary(chunks[i])))
      && r.events[|chunks|] == Generate(UnifySummaries(CombinedSummaries(env, transcript)))
      && r.value == env.gen(UnifySummaries(CombinedSummaries(env, transcript)))
  {
    var each := SummarizeEach(env, env.split(transcript));
    var final := Ask(env, UnifySummaries(Join("\n\n", each.value)));
    Traced(final.value, each.events + final.events)
  }

  /** The analysis a structured summary reads: the one supplied, or a fresh
      full analysis when none is supplied or it is empty. */
  function AnalysisFor(env: Env, transcript: string, analysis: Option<Dialogue.Analysis>): (r: Traced<Dialogue.Analysis>)
    ensures analysis.Some? && !Dialogue.IsEmpty(analysis.value) ==> r == Traced(analysis.value, [])
  {
    if analysis.None? || Dialogue.IsEmpty(analysis.value) then Dialogue.Run(env, transcript, "full")
    else Traced(analysis.value, [])
  }

  /** The prompt of the structured summary: the transcript, the emotions
      (empty when absent) and the topics one per line (none when absent). */
  function StructuredPrompt(transcript: string, a: Dialogue.Analysis): Prompt {
    StructuredSummary(transcript, a.emotions.GetOr(""), Join("\n", a.topics.GetOr([])))
  }

  /** `create_structured_summary`: the analysis (run first if missing), one
      structured-summary call, and the sections of its answer. */
  function CreateStructuredSummary(env: Env, transcript: string, analysis: Option<Dialogue.Analysis>): (r: Traced<Dict>)
    ensures var a := AnalysisFor(env, transcript, analysis);
      && r.events == a.events + [Generate(StructuredPrompt(transcript, a.value))]
      && Get(r.value, "full_summary") == Some(env.gen(StructuredPrompt(transcript, a.value)))
  {
    var a := AnalysisFor(env, transcript, analysis);
    var out := Ask(env, StructuredPrompt(transcript, a.value));
    StructuredSummaryLookup(out.value);
    Traced(ParseStructuredSummary(out.value), a.events + out.events)
  }

  /** What `run` returns: the unified text, or a mapping. */
  datatype Summary = Text(text: string) | Mapping(entries: Dict)

  /** The summary types `run` names when it rejects one. */
  const SummaryTypes: string := "'chunk', 'unified', or 'structured'"

  /** `run`: "chunk" and "unified" both give the chunk-based summary;
      "structured" runs the full dialogue analysis and then the structured
      summary; any other type gives a mapping holding only an error that
      names the type, with no call made. */
  function Run(env: Env, transcript: string, summaryType: string): (r: Traced<Summary>)
    ensures summaryType == "chunk" || summaryType == "unified" ==>
      r.value == Text(SummarizeTranscriptChunks(env, transcript).value)
    ensures summaryType !in {"chunk", "unified", "structured"} ==>
      && r.value.Mapping?
      && Keys(r.value.entries) == ["error"]
      && Contains(r.value.entries[0].1, summaryType)
      && r.events == []
    ensures summaryType == "structured" ==>
      r.value.Mapping? && Get(r.value.entries, "full_summary").Some?
  {
    if summaryType == "chunk" then
      var s := SummarizeTranscriptChunks(env, transcript);
      Traced(Text(s.value), s.events)
    else if summaryType == "unified" then
      var s := SummarizeTranscriptChunks(env, transcript);
      Traced(Text(s.value), s.events)
    else if summaryType == "structured" then
      var a := Dialogue.Run(env, transcript, "full");
      var s := CreateStructuredSummary(env, transcript, Some(a.value));
      Traced(Mapping(s.value), a.events + s.events)
    else
      Traced(Mapping([("error", InvalidTypeMessage("summary", summaryType, SummaryTypes))]), [])
  }

  /** "chunk" and "unified" are the same path. */
  lemma {:induction false} RunChunkIsUnified(env: Env, transcript: string)
    ensures Run(env, transcript, "chunk") == Run(env, transcript, "unified")
  {
  }

  /** The structured path runs the full analysis once, first, then makes the
      one structured-summary call on the analysis it just ran; it keeps the
      raw answer under `full_summary`. */
  lemma {:induction false} RunStructured(env: Env, transcript: string)
    ensures var a := Dialogue.Run(env, transcript, "full");
      && Run(env, transcript, "structured").events ==
           [Generate(EmotionAnalysis(transcript)), Generate(TopicExtraction(transcript)),
            Generate(QuestionExtraction(transcript)), Generate(StructuredPrompt(transcript, a.value))]
      && Run(env, transcript, "structured").value ==
           Mapping(ParseStructuredSummary(env.gen(StructuredPrompt(transcript, a.value))))
  {
    var a := Dialogue.Run(env, transcript, "full");
    Dialogue.RunFull(env, transcript);
    var s := CreateStructuredSummary(env, transcript, Some(a.value));
    assert Run(env, transcript, "structured") == Traced(Mapping(s.value), a.events + s.events);
    assert AnalysisFor(env, transcript, Some(a.value)) == Traced(a.value, []);
    assert s.events == [Generate(StructuredPrompt(transcript, a.value))];
    Append3(a.events, s.events, Generate(EmotionAnalysis(transcript)), Generate(TopicExtraction(transcript)),
            Generate(QuestionExtraction(transcript)), Generate(StructuredPrompt(transcript, a.value)));
  }
}

=== FILE: text.dfy ===
/** Python string semantics the agents rely on: `in`, `find`, `split` with a
    non-empty separator, `join`, `strip()` and `lower()`. Every other module
    parses generated text through these definitions. */
module Text {
  import opened Optional

  /** Python's `str.isspace` for a single character: the characters
      `str.strip()` removes when called without arguments. */
  predicate IsSpace(c: char) {
    || ('\t' <= c <= '\r')
    || ('\U{1C}' <= c <= '\U{1F}')
    || c == ' '
    || c == '\U{85}'
    || c == '\U{A0}'
    || c == '\U{1680}'
    || ('\U{2000}' <= c <= '\U{200A}')
    || c == '\U{2028}'
    || c == '\U{2029}'
    || c == '\U{202F}'
    || c == '\U{205F}'
    || c == '\U{3000}'
  }

  predicate AllSpace(s: string) {
    forall i :: 0 <= i < |s| ==> IsSpace(s[i])
  }

  /** Neither end of `s` is whitespace. */
  predicate IsStripped(s: string) {
    |s| == 0 || (!IsSpace(s[0]) && !IsSpace(s[|s| - 1]))
  }

  /** The first index at or after `i` that does not hold whitespace. */
  function SkipSpaces(s: string, i: nat): (j: nat)
    requires i <= |s|
    ensures i <= j <= |s|
    ensures forall k :: i <= k < j ==> IsSpace(s[k])
    ensures j == |s| || !IsSpace(s[j])
    decreases |s| - i
  {
    if i == |s| || !IsSpace(s[i]) then i else SkipSpaces(s, i + 1)
  }

  /** The end of `s[lo..j]` once its trailing whitespace is dropped. */
  function SkipSpacesBack(s: string, lo: nat, j: nat): (e: nat)
    requires lo <= j <= |s|
    ensures lo <= e <= j
    ensures forall k :: e <= k < j ==> IsSpace(s[k])
    ensures e == lo || !IsSpace(s[e - 1])
    decreases j - lo
  {
    if j == lo || !IsSpace(s[j - 1]) then j else SkipSpacesBack(s, lo, j - 1)
  }

  /** Where the text kept by `Strip(s)` begins. */
  function StripStart(s: string): nat
    ensures StripStart(s) <= |s|
  {
    SkipSpaces(s, 0)
  }

  /** Python `s.strip()`: the longest infix of `s` that neither begins nor
      ends with whitespace, everything cut off being whitespace. */
  function Strip(s: string): (r: string)
    ensures IsStripped(r)
    ensures StripStart(s) + |r| <= |s|
    ensures r == s[StripStart(s)..StripStart(s) + |r|]
    ensures AllSpace(s[..StripStart(s)]) && AllSpace(s[StripStart(s) + |r|..])
  {
    var a := SkipSpaces(s, 0);
    s[a..SkipSpacesBack(s, a, |s|)]
  }

  /** `strip()` yields the empty string exactly for blank text. */
  lemma {:induction false} StripEmptyIffBlank(s: string)
    ensures Strip(s) == "" <==> AllSpace(s)
  {
    var a := StripStart(s);
    if Strip(s) == "" {
      assert AllSpace(s[..a]) && AllSpace(s[a..]);
      forall i | 0 <= i < |s| ensures IsSpace(s[i]) {
        if i < a { assert s[i] == s[..a][i]; }
      }
    }
  }

  /** Stripping text that is already stripped changes nothing. */
  lemma {:induction false} StripStripped(s: string)
    requires IsStripped(s)
    ensures Strip(s) == s
  {
  }

  /** `strip()` is idempotent. */
  lemma {:induction false} StripIdempotent(s: string)
    ensures Strip(Strip(s)) == Strip(s)
  {
    StripStripped(Strip(s));
  }

  /** `sub` occurs in `s` starting at index `i`. */
  predicate OccursAt(s: string, sub: string, i: nat) {
    i + |sub| <= |s| && s[i..i + |sub|] == sub
  }

  /** Python `s.find(sub, start)` as an option: the first index at or after
      `start` where `sub` occurs, `None` when there is none. */
  function Find(s: string, sub: string, start: nat): (r: Option<nat>)
    requires start <= |s|
    ensures r.Some? ==> start <= r.value <= |s| && OccursAt(s, sub, r.value)
    ensures r.Some? ==> forall p :: start <= p < r.value ==> !OccursAt(s, sub, p)
    ensures r.None? ==> forall p :: start <= p <= |s| ==> !OccursAt(s, sub, p)
    decreases |s| - start
  {
    if OccursAt(s, sub, start) then Some(start)
    else if start == |s| then None
    else Find(s, sub, start + 1)
  }

  /** Python `sub in s`. */
  predicate Contains(s: string, sub: string) {
    Find(s, sub, 0).Some?
  }

  /** `Contains` agrees with the plain definition of a substring. */
  lemma {:induction false} ContainsIffOccurs(s: string, sub: string)
    ensures Contains(s, sub) <==> exists p: nat :: OccursAt(s, sub, p)
  {
    if p: nat :| OccursAt(s, sub, p) {
      assert p <= |s|;
    }
  }

  /** An occurrence of one character is that character at some index. */
  lemma {:induction false} ContainsChar(s: string, c: char)
    ensures Contains(s, [c]) <==> c in s
  {
    if c in s {
      var p :| 0 <= p < |s| && s[p] == c;
      assert OccursAt(s, [c], p);
    }
    if Contains(s, [c]) {
      var p := Find(s, [c], 0).value;
      assert s[p] == s[p..p + 1][0] == c;
    }
  }

  /** An occurrence in the suffix `s[k..]` is an occurrence in `s`, `k` further on. */
  lemma {:induction false} OccursInSuffix(s: string, k: nat, sub: string, p: nat)
    requires k <= |s|
    ensures OccursAt(s[k..], sub, p) <==> OccursAt(s, sub, k + p)
  {
    if k + p + |sub| <= |s| {
      assert s[k..][p..p + |sub|] == s[k + p..k + p + |sub|];
    }
  }

  /** An occurrence in a slice of `s` is an occurrence in `s`. */
  lemma {:induction false} OccursInSlice(s: string, a: nat, b: nat, sub: string, p: nat)
    requires a <= b <= |s|
    requires OccursAt(s[a..b], sub, p)
    ensures OccursAt(s, sub, a + p)
  {
    var t := s[a..b];
    assert t[p..p + |sub|] == sub;
    forall j | 0 <= j < |sub| ensures s[a + p + j] == sub[j] {
      assert sub[j] == t[p..p + |sub|][j] == t[p + j] == s[a + p + j];
    }
    assert s[a + p..a + p + |sub|] == sub;
  }

  /** Text that does not contain `sub` has no slice containing it. */
  lemma {:induction false} SliceLacks(s: string, a: nat, b: nat, sub: string)
    requires a <= b <= |s|
    requires !Contains(s, sub)
    ensures !Contains(s[a..b], sub)
  {
    if Contains(s[a..b], sub) {
      OccursInSlice(s, a, b, sub, Find(s[a..b], sub, 0).value);
    }
  }

  /** The text before the first occurrence holds no occurrence. */
  lemma {:induction false} PrefixLacks(s: string, sub: string, i: nat)
    requires |sub| > 0 && Find(s, sub, 0) == Some(i)
    ensures !Contains(s[..i], sub)
  {
    if Contains(s[..i], sub) {
      OccursInSlice(s, 0, i, sub, Find(s[..i], sub, 0).value);
    }
  }

  /** Text placed between two others is contained in the whole. */
  lemma {:induction false} ContainsMiddle(a: string, b: string, c: string)
    ensures Contains(a + b + c, b)
  {
    var s := a + b + c;
    assert s[|a|..|a| + |b|] == b;
    assert OccursAt(s, b, |a|);
    ContainsIffOccurs(s, b);
  }

  /** Python `sep.join(xs)`. */
  function Join(sep: string, xs: seq<string>): string
  {
    if |xs| == 0 then ""
    else if |xs| == 1 then xs[0]
    else xs[0] + sep + Join(sep, xs[1..])
  }

  /** Joining a non-empty list after one more part puts a separator between them. */
  lemma {:induction false} JoinCons(sep: string, x: string, xs: seq<string>)
    requires |xs| > 0
    ensures Join(sep, [x] + xs) == x + sep + Join(sep, xs)
  {
    assert ([x] + xs)[1..] == xs;
  }

  /** Joining two non-empty lists puts one separator between their joins. */
  lemma {:induction false} JoinAppend(sep: string, xs: seq<string>, ys: seq<string>)
    requires |xs| > 0 && |ys| > 0
    ensures Join(sep, xs + ys) == Join(sep, xs) + sep + Join(sep, ys)
    decreases |xs|
  {
    if |xs| == 1 {
      assert (xs + ys)[1..] == ys;
    } else {
      assert (xs + ys)[1..] == xs[1..] + ys;
      JoinAppend(sep, xs[1..], ys);
    }
  }

  /** Python `s.split(sep)` for a non-empty separator (an empty one raises
      `ValueError`; no caller passes one): the pieces between successive
      leftmost occurrences of `sep`. */
  function Split(s: string, sep: string): (r: seq<string>)
    requires |sep| > 0
    ensures |r| >= 1
    ensures |r| == 1 <==> !Contains(s, sep)
    decreases |s|
  {
    var f := Find(s, sep, 0);
    if f.None? then [s] else [s[..f.value]] + Split(s[f.value + |sep|..], sep)
  }

  /** Joining the pieces with the separator gives back the text. */
  lemma {:induction false} JoinSplit(s: string, sep: string)
    requires |sep| > 0
    ensures Join(sep, Split(s, sep)) == s
    decreases |s|
  {
    if Contains(s, sep) {
      var i := Find(s, sep, 0).value;
      var rest := s[i + |sep|..];
      assert Split(s, sep) == [s[..i]] + Split(rest, sep);
      JoinSplit(rest, sep);
      JoinAroundOccurrence(s, sep, i, Split(rest, sep));
    }
  }

  /** Text before an occurrence, the separator, and a join of the text
      after it make up the whole. */
  lemma {:induction false} JoinAroundOccurrence(s: string, sep: string, i: nat, pieces: seq<string>)
    requires OccursAt(s, sep, i) && |pieces| > 0
    requires Join(sep, pieces) == s[i + |sep|..]
    ensures Join(sep, [s[..i]] + pieces) == s
  {
    JoinCons(sep, s[..i], pieces);
    AroundOccurrence(s, sep, i);
  }

  /** The text before an occurrence, the occurrence and the text after it
      make up the whole. */
  lemma {:induction false} AroundOccurrence(s: string, sub: string, i: nat)
    requires OccursAt(s, sub, i)
    ensures s[..i] + sub + s[i + |sub|..] == s
  {
    assert s == s[..i] + s[i..i + |sub|] + s[i + |sub|..];
  }

  /** No piece of a split contains the separator. */
  lemma {:induction false} SplitPiecesLackSeparator(s: string, sep: string)
    requires |sep| > 0
    ensures forall k :: 0 <= k < |Split(s, sep)| ==> !Contains(Split(s, sep)[k], sep)
    decreases |s|
  {
    if Find(s, sep, 0).Some? {
      var i := Find(s, sep, 0).value;
      var rest := s[i + |sep|..];
      SplitStep(s, sep, i);
      PrefixLacks(s, sep, i);
      SplitPiecesLackSeparator(rest, sep);
    }
  }

  /** Splitting at the first occurrence: the text before it, then the pieces
      of the rest. */
  lemma {:induction false} SplitStep(s: string, sep: string, i: nat)
    requires |sep| > 0 && Find(s, sep, 0) == Some(i)
    ensures Split(s, sep) == [s[..i]] + Split(s[i + |sep|..], sep)
  {
  }

  /** Splitting a join by a one-character separator that no part contains
      gives back the parts. */
  lemma {:induction false} SplitJoin(sep: string, xs: seq<string>)
    requires |sep| == 1 && |xs| > 0
    requires forall k :: 0 <= k < |xs| ==> sep[0] !in xs[k]
    ensures Split(Join(sep, xs), sep) == xs
    decreases |xs|
  {
    var s := Join(sep, xs);
    if |xs| > 1 {
      var x := xs[0];
      var tail := Join(sep, xs[1..]);
      assert s == x + sep + tail;
      assert OccursAt(s, sep, |x|) by { assert s[|x|..|x| + 1] == sep; }
      var i := Find(s, sep, 0).value;
      assert i == |x|;
      assert s[..i] == x;
      assert s[i + |sep|..] == tail;
      SplitJoin(sep, xs[1..]);
    }
  }

  /** Python `c.lower()` on ASCII letters; other characters are kept. */
  function LowerChar(c: char): char {
    if 'A' <= c <= 'Z' then (c as int + 32) as char else c
  }

  /** Python `s.lower()` restricted to the ASCII case mapping. */
  function Lower(s: string): (r: string)
    ensures |r| == |s|
    ensures forall i :: 0 <= i < |s| ==> r[i] == LowerChar(s[i])
  {
    if |s| == 0 then "" else [LowerChar(s[0])] + Lower(s[1..])
  }

  /** Lower-casing twice is lower-casing once. */
  lemma {:induction false} LowerIdempotent(s: string)
    ensures Lower(Lower(s)) == Lower(s)
  {
  }

  /** Text without capitals is its own lower-case form. */
  lemma {:induction false} LowerOfLowercase(s: string)
    requires forall i :: 0 <= i < |s| ==> !('A' <= s[i] <= 'Z')
    ensures Lower(s) == s
  {
    assert forall i :: 0 <= i < |s| ==> Lower(s)[i] == s[i];
  }

  /** A lower-case letter is reached from itself and from its capital only. */
  lemma {:induction false} LowerCharTo(c: char, l: char)
    requires 'a' <= l <= 'z'
    ensures LowerChar(c) == l <==> c == l || c == (l as int - 32) as char
  {
  }

  /** The replies that lower-case to `"true"` are the case variants of it. */
  lemma {:induction false} LowerIsTrue(s: string)
    ensures Lower(s) == "true" <==>
      && |s| == 4
      && (s[0] == 't' || s[0] == 'T')
      && (s[1] == 'r' || s[1] == 'R')
      && (s[2] == 'u' || s[2] == 'U')
      && (s[3] == 'e' || s[3] == 'E')
  {
    if |s| == 4 {
      LowerCharTo(s[0], 't');
      LowerCharTo(s[1], 'r');
      LowerCharTo(s[2], 'u');
      LowerCharTo(s[3], 'e');
      IsTrueByChars(Lower(s));
    }
  }

  /** A four-letter text is "true" exactly when its letters are. */
  lemma {:induction false} IsTrueByChars(r: string)
    requires |r| == 4
    ensures r == "true" <==> r[0] == 't' && r[1] == 'r' && r[2] == 'u' && r[3] == 'e'
  {
    if r[0] == 't' && r[1] == 'r' && r[2] == 'u' && r[3] == 'e' {
      assert r == "true";
    }
  }
}
